=== FILE: README.md ===
# Conditional views: the conditional-request gate

A model in Dafny of the core of `z3c.conditionalviews`. This Zope package
wraps a view in an HTTP conditional-request gate. The gate asks a list of
validators about the request. Each validator answers whether the request is
valid. When every validator that applies finds the request invalid, the view
is not called and the response gets the validator's failure status (304 Not
Modified or 412 Precondition Failed). Otherwise the view runs. Either way,
every validator then writes its cache header into the response.

The package registers two validators:

- the **entity-tag validator**. It handles `If-None-Match` and `If-Match`
  (sections 14.26 and 14.24 of RFC 2616) and writes `ETag` (section 14.19).
  It includes the small parser `parseMatchList` for comma-separated tag lists.
- the **modification-time validator**. It handles `If-Modified-Since` and
  `If-Unmodified-Since` (sections 14.25 and 14.28 of RFC 2616) and writes
  `Last-Modified` (section 14.29).

Modules:

- `Wrappers`: `Option` and `Result`. An exception the source raises is a
  `Failure`.
- `Http`: the request and response records. Header names are enumerations,
  so the case-insensitive lookup is settled once. The request also carries
  the facts the validators look up about the resource:
  - whether it is a null resource;
  - the entity tag its adapter reports;
  - the modification time its adapter reports.
- `Text`: Python 2's `str.strip()`, `str.split(sep)` and `str.split(sep, 1)[0]`.
- `ETag`: `ETagValidator`, whose `parseMatchList` is `ParseMatchList`.
- `LastModification`: `ModifiedSinceValidator`.
- `Gate`: the `validate` function. It is stated over the list of each
  validator's `Answer`: skipped, or its verdict together with the status it
  would answer with.
- `Scenarios`: end-to-end runs of the gate with both validators registered.

Where the code and its documentation disagree, the model follows the code:

- **The rejection status comes from the last failing validator.** The
  `invalidStatus` docstring in `src/z3c/conditionalviews/interfaces.py`
  (lines 93-96) says the first one is used. `validate` instead overwrites
  the status for every invalid validator.
  `Scenarios.LastFailingValidatorChoosesStatus` shows that the same `POST`
  request gets 304 or 412 depending on the order of the validators. For
  `GET` and `HEAD` both validators answer 304, so the order does not show.
- **An empty list header raises.** An empty `If-None-Match` or `If-Match`
  value does not parse to the empty list. `"".split(",")` is `[""]`, and
  indexing the first character of the empty element raises `IndexError`.
  So does any element that is empty after stripping, such as `"a,,b"` or a
  trailing comma, and a bare `W/`.
- **A tag with a comma in it is never recognised.** `updateResponse`
  writes any non-empty tag, but `parseMatchList` splits the header on
  commas before it looks for quotes. The tag `a,b` is written as `"a,b"`
  and read back as the pieces `"a` and `b"`, both of which are dropped.
  `ETag.EchoedCommaTagPasses` shows that a client echoing that tag in
  `If-None-Match` passes the entity-tag validator, where any non-empty
  comma-free tag fails `If-None-Match` (`ETag.EchoedETag`).
- **Invalid without a reason.** The modification-time validator's `valid`
  raises its "protocol implementation is broken" `ValueError` when neither
  date header is present, there is no query string, and a timestamp is
  known. So "`evaluate` false implies `valid` true" does not hold for it. It
  only holds for the entity-tag validator.
- **`If-Unmodified-Since` fails closed.** An `If-Unmodified-Since` date that
  cannot be parsed makes the request invalid. The same failure on
  `If-Modified-Since` lets the request through.

## Model

| member | source | states |
|---|---|---|
| `Text.Strip` | src/z3c/conditionalviews/etag.py:417 | `str.strip()` never lengthens the text and leaves no whitespace at either end |
| `Text.StripPadded` | src/z3c/conditionalviews/etag.py:417 | stripping removes exactly the surrounding whitespace: padding a trimmed text with whitespace on both sides and stripping gives the text back |
| `Text.StripAvoids` | src/z3c/conditionalviews/etag.py:417 | stripping only removes characters: a character absent from the input is absent from the result |
| `Text.Split` | src/z3c/conditionalviews/etag.py:416 | `split(",")` yields at least one piece, no piece contains the separator, and joining the pieces with the separator gives back the input |
| `Text.SplitJoin` | src/z3c/conditionalviews/etag.py:416 | splitting a join of separator-free pieces gives back exactly those pieces |
| `Text.BeforeFirst` | src/z3c/conditionalviews/lastmodification.py:275 | `split(";", 1)[0]` is a prefix of the header value, contains no `;`, and stops only at a `;` |
| `ETag.DropWeak` | src/z3c/conditionalviews/etag.py:421-422 | the value changes exactly when it starts with `W/`, and then loses just those two characters; the result is empty exactly for `""` and `"W/"` |
| `ETag.ParseStripped` | src/z3c/conditionalviews/etag.py:418-424 | a stripped element raises exactly when it is `""` or `"W/"` (where `val[0]` indexes an empty string), only with that error, and a kept tag is never empty |
| `ETag.ParseElement` | src/z3c/conditionalviews/etag.py:417-424 | an element raises exactly when it strips to `""` or `"W/"`, and a kept tag is never empty |
| `ETag.ParseStrippedKeeps` | src/z3c/conditionalviews/etag.py:418-424 | a stripped element yields the tag `t` exactly when it is `*` (and `t` is `*`) or it is `"t"` or `W/"t"` with `t` non-empty; with the raising cases this says which elements are dropped |
| `ETag.ParseElementKeeps` | src/z3c/conditionalviews/etag.py:417-424 | the same for a raw element: what it strips to decides which tag, if any, is kept |
| `ETag.ParseElementAvoids` | src/z3c/conditionalviews/etag.py:417-424 | a kept tag is cut out of its element: a character absent from the element is absent from the tag |
| `ETag.ParseElements` | src/z3c/conditionalviews/etag.py:416-424 | the loop over the elements raises exactly when some element is malformed, and keeps at most one tag per element |
| `ETag.ParseElementsStep` | src/z3c/conditionalviews/etag.py:416-424 | when the loop succeeds, its result is the first element's tag, if kept, followed in order by the result of the loop over the remaining elements |
| `ETag.ParseElementsTags` | src/z3c/conditionalviews/etag.py:416-424 | comma-free elements yield only non-empty, comma-free tags |
| `ETag.ParseMatchList` | src/z3c/conditionalviews/etag.py:412-425 | an absent header is the empty list; a present one raises exactly when one of its comma-separated elements is malformed, and otherwise yields non-empty tags free of commas |
| `ETag.ParseMatchListFirst` | src/z3c/conditionalviews/etag.py:416-425 | a header is read from its first comma on: it raises exactly when its first element or the rest raises, and otherwise is the first element's tag, if kept, followed by the list of the rest |
| `ETag.ParseMatchListSingle` | src/z3c/conditionalviews/etag.py:416-425 | a header without a comma raises exactly when its one element does, and otherwise is that element's tag if it is kept and the empty list if not |
| `Text.SplitAround` | src/z3c/conditionalviews/etag.py:416 | splitting at one comma splits the two sides separately and puts their pieces side by side |
| `ETag.ParseRenderedList` | src/z3c/conditionalviews/etag.py:412-425 | round trip: a list header written as clients write it (wildcards and strong or weak quoted tags, separated by `", "`) parses to the tags unquoted and the wildcards kept, in order, with the weak markers dropped |
| `ETag.ParseQuotedTag` | src/z3c/conditionalviews/etag.py:421-424 | for a non-empty tag with no comma in it, a single `"tag"` or `W/"tag"` parses to `[tag]` |
| `ETag.ParseExampleTwo` | src/z3c/conditionalviews/etag.py:59-60 | the documented `"aa", "bb"` parses to `["aa", "bb"]` |
| `ETag.ParseExampleWildcard` | src/z3c/conditionalviews/etag.py:61-62 | the documented `"aa", *, "bb"` parses to `["aa", "*", "bb"]` |
| `ETag.ParseExampleWeak` | src/z3c/conditionalviews/etag.py:65-66 | the documented `W/"w1", W/"w2"` parses to `["w1", "w2"]` |
| `ETag.UnquotedElementDropped` | src/z3c/conditionalviews/etag.py:420-424 | an element that is not the wildcard, not quoted and not weak is dropped without error, whatever whitespace surrounds it |
| `ETag.UnquotedHeaderIgnored` | src/z3c/conditionalviews/etag.py:55-56 | a header holding only such a tag, like the documented `aa`, parses to the empty list |
| `ETag.ParseEmptyHeaderRaises` | src/z3c/conditionalviews/etag.py:414-423 | an empty header value raises instead of parsing to the empty list |
| `ETag.ParseEmptyElementRaises` | src/z3c/conditionalviews/etag.py:416-423 | two adjacent commas raise, whatever text comes before and after them |
| `ETag.ParseBareWeakMarkerRaises` | src/z3c/conditionalviews/etag.py:421-423 | a bare `W/`, with any surrounding whitespace, raises |
| `ETag.ParseQuotedStarIsWildcard` | src/z3c/conditionalviews/etag.py:423-424 | a quoted `"*"` unquotes to the wildcard itself |
| `ETag.Evaluate` | src/z3c/conditionalviews/etag.py:427-429 | `evaluate`: the request carries `If-None-Match` or `If-Match`, well-formed or not; that the validator is valid without either is stated by `ETag.Valid`, and that only such requests reach its parser through the gate by `Gate.OnlyParserErrorsEscape` |
| `ETag.CurrentTag` | src/z3c/conditionalviews/etag.py:447-451 | the current tag is absent when no adapter answers or it reports none; its use is stated by `ETag.NoneMatchTags`, `ETag.MatchTags` and `ETag.UpdateResponse` |
| `ETag.Matches` | src/z3c/conditionalviews/etag.py:435-444 | `_matches`: a list with `*` matches exactly an existing resource, and otherwise the list matches exactly when there is no query string and the current tag is known and listed; stated through `valid` by `ETag.NoneMatchWildcard`, `ETag.NoneMatchTags`, `ETag.MatchWildcard` and `ETag.MatchTags` |
| `ETag.Valid` | src/z3c/conditionalviews/etag.py:446-464 | a request whose two list headers both yield no element, absent or not, is valid; `valid` raises, always with the parser's error, exactly when `If-None-Match` is malformed, or when it yields no element and `If-Match` is malformed |
| `ETag.ValidIfMatch` | src/z3c/conditionalviews/etag.py:458-464 | the `If-Match` half of `valid`, reached when `If-None-Match` yields no element; stated by `ETag.EmptyNoneMatchFallsThrough`, `ETag.IfMatchReads`, `ETag.MatchWildcard` and `ETag.MatchTags` |
| `ETag.NoneMatchTakesPrecedence` | src/z3c/conditionalviews/etag.py:453-456 | when `If-None-Match` parses to a non-empty list, removing `If-Match` from the request changes nothing |
| `ETag.EmptyNoneMatchFallsThrough` | src/z3c/conditionalviews/etag.py:454-460 | an `If-None-Match` whose elements are all dropped decides nothing: the verdict is the one the request gets without that header |
| `ETag.IfMatchIgnoresNoneMatch` | src/z3c/conditionalviews/etag.py:458-464 | the `If-Match` half of `valid` does not read `If-None-Match` |
| `ETag.IfMatchReads` | src/z3c/conditionalviews/etag.py:458-464 | the `If-Match` half of `valid` depends only on `If-Match`, the current tag, the query string and whether the resource exists |
| `ETag.NoneMatchWildcard` | src/z3c/conditionalviews/etag.py:435-456 | an `If-None-Match` list with `*` passes exactly for a null resource, query string or not |
| `ETag.NoneMatchTags` | src/z3c/conditionalviews/etag.py:441-456 | an `If-None-Match` list of tags only fails exactly when there is no query string and the current tag is known and listed |
| `ETag.MatchWildcard` | src/z3c/conditionalviews/etag.py:435-460 | with no usable `If-None-Match`, an `If-Match` list with `*` passes exactly for an existing resource |
| `ETag.MatchTags` | src/z3c/conditionalviews/etag.py:441-460 | with no usable `If-None-Match`, an `If-Match` list of tags only passes exactly when there is no query string and the current tag is known and listed, so an absent tag never passes |
| `ETag.QueryStringDefeatsTagLists` | src/z3c/conditionalviews/etag.py:441-460 | with a query string, a tags-only `If-None-Match` always passes and a tags-only `If-Match` always fails |
| `ETag.NoneMatchCurrentTagFails` | src/z3c/conditionalviews/etag.py:446-456 | for a non-empty current tag with no comma in it and no query string, `If-None-Match` naming that tag, in strong or weak form, fails for an existing resource |
| `ETag.MatchCurrentTagPasses` | src/z3c/conditionalviews/etag.py:446-460 | for a non-empty current tag with no comma in it and no query string, `If-Match` naming that tag, with no `If-None-Match`, passes for an existing resource |
| `ETag.InvalidStatus` | src/z3c/conditionalviews/etag.py:466-475 | the failure status is 304 exactly for `GET` and `HEAD`, and 412 for every other method |
| `ETag.UpdateResponse` | src/z3c/conditionalviews/etag.py:477-487 | an existing `ETag` is never overwritten; with a query string the response is untouched; otherwise `ETag` is added exactly when the current tag is known and non-empty, as `"tag"` or `W/"tag"`; the status and every other header are kept |
| `ETag.EchoedETag` | src/z3c/conditionalviews/etag.py:446-487 | for a non-empty current tag with no comma in it, on a request without a query string, the `ETag` the validator writes, sent back unchanged, fails `If-None-Match` and passes `If-Match` while the resource keeps that tag |
| `ETag.EchoedCommaTagPasses` | src/z3c/conditionalviews/etag.py:412-487 | the comma-free condition is needed: the tag `a,b` is written as `"a,b"`, which parses to the empty list, so echoing it in `If-None-Match` passes the request |
| `LastModification.ModifiedSince` | src/z3c/conditionalviews/lastmodification.py:268-284 | true when the header is absent or its date (the text before any `;`) cannot be parsed; otherwise true exactly when the resource is strictly newer than the date |
| `LastModification.Evaluate` | src/z3c/conditionalviews/lastmodification.py:286-289 | `evaluate`: the request carries `If-Modified-Since` or `If-Unmodified-Since`; that `valid` raises exactly when it is false and a comparison would be made is stated by `LastModification.Valid` |
| `LastModification.LastModified` | src/z3c/conditionalviews/lastmodification.py:301-307 | the modification time is absent when no adapter answers or it reports none; that the request is then valid is stated by `LastModification.Valid`, and that nothing is advertised by `LastModification.UpdateResponse` |
| `LastModification.Valid` | src/z3c/conditionalviews/lastmodification.py:295-316 | a query string or an unknown modification time makes the request valid; `valid` raises exactly when neither date header is present although it would compare, and then with the broken-protocol error |
| `LastModification.ModifiedSinceRule` | src/z3c/conditionalviews/lastmodification.py:309-310 | with a readable `If-Modified-Since` date, the request passes exactly when the resource is strictly newer, so an equal or older time fails |
| `LastModification.ModifiedSinceUnreadable` | src/z3c/conditionalviews/lastmodification.py:273-279 | an unreadable `If-Modified-Since` date lets the request through |
| `LastModification.UnmodifiedSinceRule` | src/z3c/conditionalviews/lastmodification.py:311-313 | with a readable `If-Unmodified-Since` date and no `If-Modified-Since`, the request passes exactly when the resource is not newer than the date |
| `LastModification.UnmodifiedSinceUnreadable` | src/z3c/conditionalviews/lastmodification.py:311-313 | an unreadable `If-Unmodified-Since` date fails the request |
| `LastModification.ModifiedSinceTakesPrecedence` | src/z3c/conditionalviews/lastmodification.py:309-313 | when `If-Modified-Since` is present, removing `If-Unmodified-Since` changes nothing |
| `LastModification.DateParametersIgnored` | src/z3c/conditionalviews/lastmodification.py:274-275 | parameters after a `;` in a date header never change the date read |
| `LastModification.FormattedDateReadsBack` | src/z3c/conditionalviews/lastmodification.py:274-275 | when the date library's parser and formatter agree, a formatted date read from a header gives back the same time |
| `LastModification.InvalidStatus` | src/z3c/conditionalviews/lastmodification.py:318-319 | the failure status is always 304 |
| `LastModification.UpdateResponse` | src/z3c/conditionalviews/lastmodification.py:321-328 | an existing `Last-Modified` is never overwritten; with a query string the response is untouched; otherwise the formatted time is added exactly when it is known; the status and every other header are kept |
| `LastModification.EchoedLastModified` | src/z3c/conditionalviews/lastmodification.py:309-328 | the `Last-Modified` the validator writes, sent back in `If-Modified-Since`, fails while the resource is unchanged and passes once it is newer |
| `Gate.Count` | src/z3c/conditionalviews/__init__.py:33-40 | the first loop of `validate`, counting evaluated and invalid validators and keeping the last invalid status; stated by `Gate.CountDecides`, `Gate.CountApplicable`, `Gate.CountInvalid` and `Gate.CountStatus` |
| `Gate.CountDecides` | src/z3c/conditionalviews/__init__.py:34-40 | the first loop completes exactly when no applicable validator raises, and an error it reports is one an applicable validator raised |
| `Gate.CountApplicable` | src/z3c/conditionalviews/__init__.py:34-42 | never more invalid validators than evaluated ones; none evaluated exactly when none applies; as many invalid as evaluated exactly when every applicable validator fails the request |
| `Gate.CountInvalid` | src/z3c/conditionalviews/__init__.py:33-40 | no invalid validator is counted exactly when none fails the request, and then the status is still the initial 999 |
| `Gate.CountStatus` | src/z3c/conditionalviews/__init__.py:33-40 | the status after the loop is that of the last validator, in list order, that found the request invalid |
| `Gate.UnanimousHasLastFailing` | src/z3c/conditionalviews/__init__.py:42-44 | when the rule rejects, some validator is the last one to fail the request |
| `Gate.UpdateAll` | src/z3c/conditionalviews/__init__.py:50-51 | the second loop keeps the status and every header already set, adds only `ETag` and `Last-Modified`, and changes nothing for a request with a query string |
| `Gate.UpdateAllETag` | src/z3c/conditionalviews/__init__.py:50-51 | starting without one, the response ends with an `ETag` exactly when the entity-tag validator is in the list and has a tag to write, and it is the quoted current tag |
| `Gate.UpdateAllLastModified` | src/z3c/conditionalviews/__init__.py:50-51 | starting without one, the response ends with a `Last-Modified` exactly when the modification validator is in the list and has a time to write, and it is the formatted time |
| `Gate.Validate` | src/z3c/conditionalviews/__init__.py:23-53 | the gate raises exactly when an applicable validator raises. On rejection it never calls the handler, returns an empty body, sets the last failing validator's status and keeps the headers already set. Otherwise it calls the handler once and returns its body and status, keeping its headers |
| `Gate.RejectionStatus` | src/z3c/conditionalviews/__init__.py:33-44 | a rejected request's status is the last failing validator's, so always 304 or 412 and never the initial 999 |
| `Gate.RejectedOutcome` | src/z3c/conditionalviews/__init__.py:42-53 | a rejection in full: no handler call, an empty body, and the updaters run in order on the caller's response carrying the last failing validator's status |
| `Gate.AcceptedOutcome` | src/z3c/conditionalviews/__init__.py:46-53 | an acceptance in full: one handler call, its body, and the updaters run in order on the handler's response, looking up the entity's tag and modification time as the handler left them |
| `Gate.AcceptedETagIsCurrent` | src/z3c/conditionalviews/__init__.py:46-51 | after an accepted request, a new `ETag` is written exactly when the entity-tag validator is listed, there is no query string and the entity has a non-empty tag after the handler, and it is that tag quoted |
| `Gate.AcceptedLastModifiedIsCurrent` | src/z3c/conditionalviews/__init__.py:46-51 | after an accepted request, a new `Last-Modified` is written exactly when the modification validator is listed, there is no query string and the entity has a modification time after the handler, and it is that time formatted |
| `Gate.OnlyParserErrorsEscape` | src/z3c/conditionalviews/__init__.py:34-38 | `valid` only runs where `evaluate` holds, so the only error that escapes the gate is the tag-list parser's, from a request that carries a list header |
| `Gate.NothingApplies` | src/z3c/conditionalviews/__init__.py:42-48 | when no validator applies, the handler runs once and the gate leaves its status alone |
| `Gate.OnePassIsEnough` | src/z3c/conditionalviews/__init__.py:42-48 | when no validator raises, one applicable validator that passes the request is enough for the handler to run with its status kept: a mixed verdict is not a rejection |
| `Scenarios.NoneMatchCurrentTagRejected` | src/z3c/conditionalviews/__init__.py:42-51 | for a non-empty tag with no comma in it, a request without a query string whose `If-None-Match` names the current tag skips the handler, answers 304 for `GET`/`HEAD` and 412 otherwise, and still advertises the tag |
| `Scenarios.NoneMatchExample` | src/z3c/conditionalviews/etag.py:290-303 | the documented `xyzzy` request with `GET` is answered 304 with `ETag: "xyzzy"` |
| `Scenarios.ModifiedSinceUnchangedRejected` | src/z3c/conditionalviews/__init__.py:42-51 | when the date library's parser and formatter agree, `If-Modified-Since` naming exactly the modification time skips the handler, answers 304, and still sets `Last-Modified` |
| `Scenarios.LastFailingValidatorChoosesStatus` | src/z3c/conditionalviews/__init__.py:33-44 | for a non-empty tag with no comma in it, when both validators fail the same `POST` request, the response gets 304 with the entity-tag validator listed first and 412 with it listed last |
| `Scenarios.MixedVerdictRunsHandler` | src/z3c/conditionalviews/__init__.py:42-48 | a matching non-empty tag with no comma in it, together with a resource changed since the given date runs the handler once and keeps its body and status |

## Left out

- Component-registry lookups are left out. `getUtilitiesFor` and
  `queryMultiAdapter` are replaced by an explicit list of validators and by
  the entity-tag and modification facts carried in the request.
- The publication plumbing is left out: `BoundConditionalView`,
  `ConditionalView`, `ConditionalHTTPRequest` and `ConditionalPublication`.
  It only routes a request to `validate`.
- HTTP-date parsing and formatting are foreign library calls. They are the
  two function fields of `LastModification.HttpDates`, over whole seconds
  since the epoch. Datetime objects and the truncation to UTC seconds are
  taken as already applied. The package's own step, cutting the value at the
  first `;`, is modelled.
- The view call is the `handler` parameter. Besides its body and response
  it returns the entity's tag and modification time as they stand after the
  call, which the updaters then use, since the source looks the adapters up
  again in `updateResponse`. Its exceptions are not modelled, and neither is
  an exception raised by an `updateResponse`.
- `ETag.ParseStripped`: its contract states when it raises and that a kept
  tag is non-empty, not which tag is kept. That is stated, in both
  directions, by `ETag.ParseStrippedKeeps`.
- `ETag.ParseElement`: its contract states when it raises and that a kept
  tag is non-empty, not which tag is kept. That is stated, in both
  directions, by `ETag.ParseElementKeeps`.
- `ETag.ParseElements`: its contract states when it raises and bounds the
  number of kept tags, not which tags are kept or in what order. That is
  stated by `ETag.ParseElementsStep` together with `ETag.ParseElementKeeps`.
- `ETag.ParseMatchList`: its contract states when it raises and that the
  kept tags are non-empty and comma-free, not which tags are kept. Which
  elements are kept is stated by `ETag.ParseElementKeeps`, and how the
  elements combine by `ETag.ParseMatchListFirst` and
  `ETag.ParseMatchListSingle`.
- Header names are an enumeration, so the publisher's case-insensitive
  lookup is not modelled. Unicode whitespace is not modelled either:
  `strip()` removes the six ASCII whitespace characters of Python 2 byte
  strings.
- The initial response status is `None` here. The publisher's default is 599.
- `Text.Strip`: its contract states only that the result is no longer than
  the input and has no whitespace at its ends. That it removes exactly the
  surrounding whitespace is stated by `Text.StripPadded`, for padded
  trimmed text.
- `Gate.UpdateAll`: its contract does not say which value a new header gets.
  The values are in `Gate.UpdateAllETag` and `Gate.UpdateAllLastModified`.
- `ETag.Valid`: its contract states the default (valid when neither list
  header yields an element) and exactly when it raises, but not the verdict
  when a list is non-empty. The precedence of the two headers is stated by
  `ETag.NoneMatchTakesPrecedence` and `ETag.EmptyNoneMatchFallsThrough`, and
  the verdict on a non-empty list by `ETag.NoneMatchWildcard`,
  `ETag.NoneMatchTags`, `ETag.MatchWildcard` and `ETag.MatchTags`.
- `LastModification.Valid`: its contract states only the early exits and
  when it raises. The comparisons are stated by the four
  `LastModification` rule lemmas.
- `ETag.ParseRenderedList`: the round trip covers headers written as
  clients write them, with `", "` between items. Other whitespace around
  elements is covered separately, by `ETag.ParseBareWeakMarkerRaises` and
  `ETag.UnquotedElementDropped` for single elements.

=== FILE: etag.dfy ===
/**
  The entity-tag validator: `If-None-Match` and `If-Match` (sections 14.26
  and 14.24 of RFC 2616), and the `ETag` response header (section 14.19).
 */
module ETag {
  import opened Wrappers
  import opened Http
  import opened Text

  /** The list element that matches any current entity. */
  const Wildcard: string := "*"

  // ---------------------------------------------------------------------------
  // Entity-tag syntax (section 3.11 of RFC 2616)
  // ---------------------------------------------------------------------------

  /** `W/"tag"` for a weak tag, `"tag"` for a strong one. */
  function Quote(tag: string, weak: bool): string {
    (if weak then "W/" else "") + "\"" + tag + "\""
  }

  /** One element of a well-formed list header: the wildcard or a quoted tag. */
  datatype MatchItem = AnyTag | Tagged(tag: string, weak: bool)

  /** Tags the list syntax can carry: non-empty and free of the list separator. */
  predicate Listable(item: MatchItem) {
    item.Tagged? ==> |item.tag| > 0 && ',' !in item.tag
  }

  function Render(item: MatchItem): string {
    match item
    case AnyTag => Wildcard
    case Tagged(t, w) => Quote(t, w)
  }

  /** What the parser should recover from an item: the wildcard, or the bare tag. */
  function Body(item: MatchItem): string {
    match item
    case AnyTag => Wildcard
    case Tagged(t, _) => t
  }

  /**
    The comma-separated pieces of a list header as clients send it: the first
    item after `pad`, every later one after a space.
   */
  function Pieces(items: seq<MatchItem>, pad: string): (ps: seq<string>)
    ensures |ps| == |items|
  {
    if |items| == 0 then [] else [pad + Render(items[0])] + Pieces(items[1..], " ")
  }

  /** A list header as clients send it: the rendered items separated by `", "`. */
  function RenderList(items: seq<MatchItem>): string
    requires |items| > 0
  {
    Join(Pieces(items, ""), ',')
  }

  /** What the parser should recover from each item, in order. */
  function Bodies(items: seq<MatchItem>): seq<string> {
    if |items| == 0 then [] else [Body(items[0])] + Bodies(items[1..])
  }

  // ---------------------------------------------------------------------------
  // parseMatchList
  // ---------------------------------------------------------------------------

  /** Removes one leading weak marker `W/`. */
  function DropWeak(v: string): (u: string)
    ensures |u| == 0 <==> v == "" || v == "W/"
    ensures u != v <==> |v| >= 2 && v[0] == 'W' && v[1] == '/'
    ensures u != v ==> u == v[2..]
  {
    if |v| >= 2 && v[..2] == "W/" then v[2..] else v
  }

  /**
    A list element on which the source indexes the first character of an
    empty string: empty after stripping whitespace, or after dropping `W/`.
   */
  predicate Malformed(piece: string) {
    var v := Strip(piece);
    v == "" || v == "W/"
  }

  /** Some element of the list is malformed. */
  predicate AnyMalformed(pieces: seq<string>) {
    exists i :: 0 <= i < |pieces| && Malformed(pieces[i])
  }

  /**
    One comma-separated element: the wildcard is kept, a quoted (possibly
    weak) tag is kept unquoted, anything else is dropped (`None`), and an
    element that is empty where the source reads its first character raises.
   */
  function ParseElement(piece: string): (r: Result<Option<string>, Error>)
    ensures r.Failure? <==> Malformed(piece)
    ensures r.Failure? ==> r.error == EmptyMatchElement
    ensures r.Success? && r.value.Some? ==> |r.value.value| > 0
  {
    ParseStripped(Strip(piece))
  }

  /** `ParseElement` once the surrounding whitespace is gone. */
  function ParseStripped(v: string): (r: Result<Option<string>, Error>)
    ensures r.Failure? <==> v == "" || v == "W/"
    ensures r.Failure? ==> r.error == EmptyMatchElement
    ensures r.Success? && r.value.Some? ==> |r.value.value| > 0
  {
    if v == Wildcard then
      assert |Wildcard| == 1;
      Success(Some(Wildcard))
    else
      var u := DropWeak(v);
      if |u| == 0 then Failure(EmptyMatchElement)
      else if u[0] == '"' && u[|u| - 1] == '"' && |u| > 2 then
        var tag := u[1..|u| - 1];
        assert |tag| == |u| - 2;
        Success(Some(tag))
      else Success(None)
  }

  /** A character absent from an element is absent from what the parser keeps of it. */
  lemma ParseElementAvoids(piece: string, ch: char)
    requires ch !in piece
    requires ParseElement(piece).Success? && ParseElement(piece).value.Some?
    ensures ch !in ParseElement(piece).value.value
  {
    StripAvoids(piece, ch);
    ParseStrippedAvoids(Strip(piece), ch);
  }

  lemma ParseStrippedAvoids(v: string, ch: char)
    requires ch !in v
    requires ParseStripped(v).Success? && ParseStripped(v).value.Some?
    ensures ch !in ParseStripped(v).value.value
  {
    if v != Wildcard {
      var u := DropWeak(v);
      var tag := u[1..|u| - 1];
      assert ParseStripped(v).value.value == tag;
      assert ch !in u;
    }
  }

  /** The elements in order, keeping what `ParseElement` keeps; the first malformed one raises. */
  function ParseElements(pieces: seq<string>): (r: Result<seq<string>, Error>)
    ensures r.Failure? <==> AnyMalformed(pieces)
    ensures r.Failure? ==> r.error == EmptyMatchElement
    ensures r.Success? ==> |r.value| <= |pieces|
  {
    if |pieces| == 0 then Success([])
    else
      assert AnyMalformed(pieces) <==> Malformed(pieces[0]) || AnyMalformed(pieces[1..]) by {
        assert forall i :: 0 < i < |pieces| ==> pieces[i] == pieces[1..][i - 1];
      }
      var head :- ParseElement(pieces[0]);
      var tail :- ParseElements(pieces[1..]);
      Success(Kept(head) + tail)
  }

  /** The tags kept from the pieces: those of `ParseElements`, when it succeeds. */
  lemma ParseElementsStep(pieces: seq<string>)
    requires |pieces| > 0 && ParseElements(pieces).Success?
    ensures ParseElement(pieces[0]).Success? && ParseElements(pieces[1..]).Success?
    ensures var head := ParseElement(pieces[0]).value;
            ParseElements(pieces).value == Kept(head) + ParseElements(pieces[1..]).value
  {
  }

  ghost predicate AllAvoid(ss: seq<string>, ch: char) {
    forall i :: 0 <= i < |ss| ==> ch !in ss[i]
  }

  /** Every string is a non-empty tag free of `ch`. */
  ghost predicate AllTags(ss: seq<string>, ch: char) {
    forall i :: 0 <= i < |ss| ==> |ss[i]| > 0 && ch !in ss[i]
  }

  /** Pieces free of commas give non-empty tags free of commas. */
  lemma ParseElementsTags(pieces: seq<string>)
    requires ParseElements(pieces).Success?
    requires forall i :: 0 <= i < |pieces| ==> ',' !in pieces[i]
    ensures forall t :: t in ParseElements(pieces).value ==> |t| > 0 && ',' !in t
  {
    ParseElementsKept(pieces, ',');
  }

  lemma {:induction false} ParseElementsKept(pieces: seq<string>, ch: char)
    requires ParseElements(pieces).Success?
    requires AllAvoid(pieces, ch)
    ensures AllTags(ParseElements(pieces).value, ch)
    decreases |pieces|
  {
    if |pieces| > 0 {
      ParseElementsStep(pieces);
      AvoidTail(pieces, ch);
      ParseElementsKept(pieces[1..], ch);
      var head := ParseElement(pieces[0]).value;
      if head.Some? {
        ParseElementAvoids(pieces[0], ch);
      }
      TagsCons(head, ParseElements(pieces[1..]).value, ch);
    }
  }

  lemma TagsCons(head: Option<string>, tail: seq<string>, ch: char)
    requires head.Some? ==> |head.value| > 0 && ch !in head.value
    requires AllTags(tail, ch)
    ensures AllTags(Kept(head) + tail, ch)
  {
    var kept := Kept(head);
    assert forall i :: |kept| <= i < |kept + tail| ==> (kept + tail)[i] == tail[i - |kept|];
  }

  lemma AvoidTail(ss: seq<string>, ch: char)
    requires |ss| > 0 && AllAvoid(ss, ch)
    ensures ch !in ss[0] && AllAvoid(ss[1..], ch)
  {
    assert forall i :: 0 <= i < |ss[1..]| ==> ss[1..][i] == ss[i + 1];
  }

  lemma AvoidCons(head: Option<string>, tail: seq<string>, ch: char)
    requires head.Some? ==> ch !in head.value
    requires AllAvoid(tail, ch)
    ensures AllAvoid(Kept(head) + tail, ch)
  {
    var kept := Kept(head);
    assert forall i :: |kept| <= i < |kept + tail| ==> (kept + tail)[i] == tail[i - |kept|];
  }

  /**
    `parseMatchList`: an absent header is the empty list; a present one is
    split on commas and parsed element by element.
   */
  function ParseMatchList(header: Option<string>): (r: Result<seq<string>, Error>)
    ensures header.None? ==> r == Success([])
    ensures header.Some? ==>
              (r.Failure? <==> AnyMalformed(Split(header.value, ',')))
    ensures r.Failure? ==> r.error == EmptyMatchElement
    ensures r.Success? ==> forall t :: t in r.value ==> |t| > 0 && ',' !in t
  {
    match header
    case None => Success([])
    case Some(h) =>
      var r := ParseElements(Split(h, ','));
      if r.Success? then ParseElementsTags(Split(h, ',')); r else r
  }

  /** What one parsed element contributes to the list: its tag, or nothing. */
  function Kept(head: Option<string>): (l: seq<string>)
    ensures |l| <= 1
  {
    if head.Some? then [head.value] else []
  }

  /**
    A header is parsed from its first element on: the list raises when that
    element or the rest raises, and otherwise is what the first element
    keeps followed by the list of the rest.
   */
  lemma ParseMatchListFirst(a: string, b: string)
    requires ',' !in a
    ensures ParseMatchList(Some(a + [','] + b)).Failure? <==>
              ParseElement(a).Failure? || ParseMatchList(Some(b)).Failure?
    ensures ParseMatchList(Some(a + [','] + b)).Success? ==>
              ParseMatchList(Some(a + [','] + b)).value == Kept(ParseElement(a).value) + ParseMatchList(Some(b)).value
  {
    var pieces := Split(a + [','] + b, ',');
    SplitAtFirst(a, ',', b);
    assert pieces[0] == a && pieces[1..] == Split(b, ',');
  }

  /** A header of one element is what that element keeps. */
  lemma ParseMatchListSingle(a: string)
    requires ',' !in a
    ensures ParseMatchList(Some(a)).Failure? <==> ParseElement(a).Failure?
    ensures ParseMatchList(Some(a)).Success? ==> ParseMatchList(Some(a)).value == Kept(ParseElement(a).value)
  {
    SplitNoSeparator(a, ',');
    ParseElementsOne(a);
  }

  lemma ParseElementsOne(piece: string)
    ensures ParseElements([piece]).Failure? <==> ParseElement(piece).Failure?
    ensures ParseElements([piece]).Success? ==> ParseElements([piece]).value == Kept(ParseElement(piece).value)
  {
    assert [piece][0] == piece && [piece][1..] == [];
  }

  // ---------------------------------------------------------------------------
  // The validator
  // ---------------------------------------------------------------------------

  /** `evaluate`: the request carries `If-None-Match` or `If-Match`, well-formed or not. */
  predicate Evaluate(req: Request) {
    IfNoneMatch in req.headers || IfMatch in req.headers
  }

  /** The current entity tag, absent when no adapter answers or it reports none. */
  function CurrentTag(req: Request): Option<string> {
    match req.currentETag
    case None => None
    case Some(info) => info.etag
  }

  /** `_matches`: does the current tag satisfy a (non-empty) parsed list? */
  predicate Matches(req: Request, tag: Option<string>, list: seq<string>) {
    if Wildcard in list then !req.isNullResource
    else !HasQuery(req) && tag.Some? && tag.value in list
  }

  /**
    `valid`: a non-empty `If-None-Match` list decides (valid when it does not
    match); failing that a non-empty `If-Match` list decides (valid when it
    matches); failing both the request is valid.
   */
  function Valid(req: Request): (r: Result<bool, Error>)
    ensures !Evaluate(req) ==> r == Success(true)
    ensures r.Failure? ==> Evaluate(req) && r.error == EmptyMatchElement
    ensures ParseMatchList(Header(req, IfNoneMatch)) == Success([]) && ParseMatchList(Header(req, IfMatch)) == Success([]) ==>
              r == Success(true)
    ensures r.Failure? <==>
              ParseMatchList(Header(req, IfNoneMatch)).Failure? ||
              (ParseMatchList(Header(req, IfNoneMatch)) == Success([]) && ParseMatchList(Header(req, IfMatch)).Failure?)
  {
    var noneMatch :- ParseMatchList(Header(req, IfNoneMatch));
    if |noneMatch| > 0 then Success(!Matches(req, CurrentTag(req), noneMatch))
    else ValidIfMatch(req)
  }

  /** The second half of `valid`, reached when `If-None-Match` yields no element. */
  function ValidIfMatch(req: Request): Result<bool, Error> {
    var match_ :- ParseMatchList(Header(req, IfMatch));
    if |match_| > 0 then Success(Matches(req, CurrentTag(req), match_))
    else Success(true)
  }

  /** `invalidStatus`: 304 Not Modified for the safe methods, 412 Precondition Failed otherwise. */
  function InvalidStatus(req: Request): (r: int)
    ensures r == 304 <==> req.verb == "GET" || req.verb == "HEAD"
    ensures r == 304 || r == 412
  {
    if req.verb == "GET" || req.verb == "HEAD" then 304 else 412
  }

  /**
    `updateResponse`: advertise the current tag in `ETag`, unless the header is
    already set, the request has a query string, or the tag is absent or empty.
   */
  function UpdateResponse(req: Request, resp: Response): (r: Response)
    ensures r.status == resp.status
    ensures ETagHeader in resp.headers || HasQuery(req) ==> r == resp
    ensures forall h :: h != ETagHeader ==> (h in r.headers <==> h in resp.headers)
    ensures forall h :: h != ETagHeader && h in resp.headers ==> r.headers[h] == resp.headers[h]
    ensures ETagHeader !in resp.headers && !HasQuery(req) ==>
              (ETagHeader in r.headers <==> CurrentTag(req).Some? && CurrentTag(req).value != "")
    ensures ETagHeader in r.headers && ETagHeader !in resp.headers ==>
              r.headers[ETagHeader] == Quote(CurrentTag(req).value, req.currentETag.value.weak)
  {
    if ETagHeader !in resp.headers && !HasQuery(req) then
      match req.currentETag
      case Some(ETagInfo(Some(tag), weak)) =>
        if tag != "" then SetHeader(resp, ETagHeader, Quote(tag, weak)) else resp
      case _ => resp
    else resp
  }

  // ---------------------------------------------------------------------------
  // Properties of parseMatchList
  // ---------------------------------------------------------------------------

  /** Dropping the weak marker from a quoted tag leaves the strong form. */
  lemma DropWeakOfQuote(tag: string, weak: bool)
    ensures DropWeak(Quote(tag, weak)) == Quote(tag, false)
  {
    var u := Quote(tag, false);
    if weak {
      assert Quote(tag, weak) == "W/" + u;
    } else {
      assert u[0] == '"';
    }
  }

  /** An element that strips to a quoted tag yields the tag. */
  lemma ParseQuotedElement(piece: string, tag: string, weak: bool)
    requires Strip(piece) == Quote(tag, weak) && |tag| > 0
    ensures ParseElement(piece) == Success(Some(tag))
  {
    var u := Quote(tag, false);
    DropWeakOfQuote(tag, weak);
    assert |Quote(tag, weak)| > 1;
    assert u[1..|u| - 1] == tag;
  }

  /**
    The text an element must strip to for the parser to keep `tag` from it:
    the wildcard itself, or the tag between double quotes, weak or strong.
   */
  predicate KeepsTag(v: string, tag: string) {
    (v == Wildcard && tag == Wildcard) || (|tag| > 0 && (v == Quote(tag, false) || v == Quote(tag, true)))
  }

  /** The parser keeps `tag` from stripped text exactly when the text is the wildcard or that tag quoted. */
  lemma ParseStrippedKeeps(v: string, tag: string)
    ensures ParseStripped(v) == Success(Some(tag)) <==> KeepsTag(v, tag)
  {
    if KeepsTag(v, tag) && v != Wildcard {
      var weak := v == Quote(tag, true);
      var u := Quote(tag, false);
      DropWeakOfQuote(tag, weak);
      assert u[1..|u| - 1] == tag;
    }
    if ParseStripped(v) == Success(Some(tag)) && v != Wildcard {
      var u := DropWeak(v);
      assert u == Quote(tag, false);
      if u != v {
        assert v == v[..2] + v[2..];
      }
    }
  }

  /** Likewise for a raw element: what it strips to decides what is kept. */
  lemma ParseElementKeeps(piece: string, tag: string)
    ensures ParseElement(piece) == Success(Some(tag)) <==> KeepsTag(Strip(piece), tag)
  {
    ParseStrippedKeeps(Strip(piece), tag);
  }

  /** A rendered item, after any whitespace, parses back to its body. */
  lemma ParseRenderedElement(pad: string, item: MatchItem)
    requires AllSpace(pad) && Listable(item)
    ensures ParseElement(pad + Render(item)) == Success(Some(Body(item)))
  {
    var v := Render(item);
    assert Trimmed(v);
    assert pad + v + "" == pad + v;
    StripPadded(pad, v, "");
    if item.Tagged? {
      ParseQuotedElement(pad + v, item.tag, item.weak);
    }
  }

  lemma NoCommaInRendered(pad: string, item: MatchItem)
    requires AllSpace(pad) && Listable(item)
    ensures ',' !in pad + Render(item)
  {
    assert forall i :: 0 <= i < |pad| ==> pad[i] != ',';
  }

  lemma ListableTail(items: seq<MatchItem>)
    requires |items| > 0
    requires forall i :: 0 <= i < |items| ==> Listable(items[i])
    ensures Listable(items[0])
    ensures forall i :: 0 <= i < |items[1..]| ==> Listable(items[1..][i])
  {
    assert forall i :: 0 <= i < |items[1..]| ==> items[1..][i] == items[i + 1];
  }

  /** The rendered pieces are free of commas. */
  lemma {:induction false} PiecesCommaFree(items: seq<MatchItem>, pad: string)
    requires AllSpace(pad)
    requires forall i :: 0 <= i < |items| ==> Listable(items[i])
    ensures AllAvoid(Pieces(items, pad), ',')
    decreases |items|
  {
    if |items| > 0 {
      ListableTail(items);
      assert AllSpace(" ");
      PiecesCommaFree(items[1..], " ");
      NoCommaInRendered(pad, items[0]);
      AvoidCons(Some(pad + Render(items[0])), Pieces(items[1..], " "), ',');
    }
  }

  lemma ParseElementsCons(piece: string, rest: seq<string>, body: string, bodies: seq<string>)
    requires ParseElement(piece) == Success(Some(body))
    requires ParseElements(rest) == Success(bodies)
    ensures ParseElements([piece] + rest) == Success([body] + bodies)
  {
    assert ([piece] + rest)[0] == piece && ([piece] + rest)[1..] == rest;
  }

  /** The rendered pieces parse to the items' bodies in order. */
  lemma {:induction false} PiecesParse(items: seq<MatchItem>, pad: string)
    requires AllSpace(pad)
    requires forall i :: 0 <= i < |items| ==> Listable(items[i])
    ensures ParseElements(Pieces(items, pad)) == Success(Bodies(items))
    decreases |items|
  {
    if |items| > 0 {
      ListableTail(items);
      assert AllSpace(" ");
      PiecesParse(items[1..], " ");
      ParseRenderedElement(pad, items[0]);
      ParseElementsCons(pad + Render(items[0]), Pieces(items[1..], " "), Body(items[0]), Bodies(items[1..]));
    }
  }

  /**
    Round trip: a well-formed list header parses to the unquoted tags (and
    wildcards) in order, with weak markers dropped.
   */
  lemma ParseRenderedList(items: seq<MatchItem>)
    requires |items| > 0
    requires forall i :: 0 <= i < |items| ==> Listable(items[i])
    ensures ParseMatchList(Some(RenderList(items))) == Success(Bodies(items))
  {
    PiecesCommaFree(items, "");
    PiecesParse(items, "");
    SplitJoin(Pieces(items, ""), ',');
  }

  /** For a non-empty tag with no comma in it, the `ETag` value the validator writes parses back to exactly that tag. */
  lemma ParseQuotedTag(tag: string, weak: bool)
    requires |tag| > 0 && ',' !in tag
    ensures ParseMatchList(Some(Quote(tag, weak))) == Success([tag])
  {
    RenderOne(Tagged(tag, weak));
    ParseRenderedList([Tagged(tag, weak)]);
  }

  /** An empty header value is one empty element, on which the source raises. */
  lemma ParseEmptyHeaderRaises()
    ensures ParseMatchList(Some("")) == Failure(EmptyMatchElement)
  {
    assert Split("", ',') == [""];
    assert Malformed(Split("", ',')[0]);
  }

  /** So is an empty element between two commas, wherever it sits. */
  lemma ParseEmptyElementRaises(a: string, b: string)
    ensures ParseMatchList(Some(a + ",," + b)) == Failure(EmptyMatchElement)
  {
    assert a + ",," + b == a + [','] + ("" + [','] + b);
    SplitAround(a, ',', "" + [','] + b);
    SplitAtFirst("", ',', b);
    var i := |Split(a, ',')|;
    assert Split(a + ",," + b, ',')[i] == "";
    assert Malformed(Split(a + ",," + b, ',')[i]);
  }

  /** A bare weak marker, whatever whitespace surrounds it, is emptied by dropping `W/` and raises too. */
  lemma ParseBareWeakMarkerRaises(w1: string, w2: string)
    requires AllSpace(w1) && AllSpace(w2)
    ensures ParseMatchList(Some(w1 + "W/" + w2)) == Failure(EmptyMatchElement)
  {
    var s := w1 + "W/" + w2;
    assert ',' !in s by {
      assert forall i :: 0 <= i < |s| ==> s[i] == ',' ==> !IsSpace(s[i]);
    }
    SplitNoSeparator(s, ',');
    StripPadded(w1, "W/", w2);
    assert Malformed(Split(s, ',')[0]);
  }

  /** A quoted `*` unquotes to the wildcard itself. */
  lemma ParseQuotedStarIsWildcard()
    ensures ParseMatchList(Some("\"*\"")) == Success([Wildcard])
  {
    assert Quote("*", false) == "\"*\"";
    ParseQuotedTag("*", false);
  }

  /** A tag that is not quoted (nor a weak marker, nor the wildcard) is dropped without complaint. */
  lemma UnquotedElementDropped(w1: string, t: string, w2: string)
    requires AllSpace(w1) && AllSpace(w2) && Trimmed(t) && |t| > 0 && t != Wildcard
    requires t[0] != '"' && !(|t| >= 2 && t[..2] == "W/")
    ensures ParseElement(w1 + t + w2) == Success(None)
  {
    StripPadded(w1, t, w2);
    assert DropWeak(t) == t;
  }

  /** So a header holding only such a tag parses to the empty list, as in the validator's documented example `aa`. */
  lemma UnquotedHeaderIgnored(t: string)
    requires Trimmed(t) && |t| > 0 && t != Wildcard && ',' !in t
    requires t[0] != '"' && !(|t| >= 2 && t[..2] == "W/")
    ensures ParseMatchList(Some(t)) == Success([])
  {
    SplitNoSeparator(t, ',');
    assert "" + t + "" == t;
    UnquotedElementDropped("", t, "");
    assert ParseElements([t]) == Success([]) by {
      assert [t][1..] == [];
    }
  }

  /** A one-item list is just the rendered item. */
  lemma RenderOne(a: MatchItem)
    ensures RenderList([a]) == Render(a) && Bodies([a]) == [Body(a)]
  {
    assert Pieces([a], "") == [Render(a)] by {
      assert "" + Render(a) == Render(a);
      assert [a][1..] == [];
    }
    assert [a][1..] == [];
  }

  /** Joining with a comma a piece that starts with a space gives the `", "` separator. */
  lemma CommaSpace(x: string, y: string)
    ensures x + [','] + (" " + y) == x + ", " + y
  {
    assert x + [','] + (" " + y) == (x + ([','] + " ")) + y;
    assert [','] + " " == ", ";
  }

  /** A list of two or more items is the first one, `", "`, and the rest. */
  lemma RenderCons(a: MatchItem, items: seq<MatchItem>)
    requires |items| > 0
    ensures RenderList([a] + items) == Render(a) + ", " + RenderList(items)
    ensures Bodies([a] + items) == [Body(a)] + Bodies(items)
  {
    var ps, qs := Pieces([a] + items, ""), Pieces(items, "");
    assert ([a] + items)[1..] == items;
    assert ps == [Render(a)] + Pieces(items, " ") by {
      assert "" + Render(a) == Render(a);
    }
    assert Pieces(items, " ") == [" " + qs[0]] + qs[1..] by {
      assert qs[0] == "" + Render(items[0]) == Render(items[0]);
    }
    assert Join(ps, ',') == Render(a) + [','] + Join(ps[1..], ',');
    assert ps[1..] == Pieces(items, " ");
    JoinFirstPrefixed(" ", qs, ',');
    CommaSpace(Render(a), RenderList(items));
  }

  lemma RenderTwo(a: MatchItem, b: MatchItem)
    ensures RenderList([a, b]) == Render(a) + ", " + Render(b) && Bodies([a, b]) == [Body(a), Body(b)]
  {
    RenderOne(b);
    RenderCons(a, [b]);
    assert [a] + [b] == [a, b];
  }

  lemma RenderThree(a: MatchItem, b: MatchItem, c: MatchItem)
    ensures RenderList([a, b, c]) == Render(a) + ", " + Render(b) + ", " + Render(c)
    ensures Bodies([a, b, c]) == [Body(a), Body(b), Body(c)]
  {
    RenderTwo(b, c);
    RenderCons(a, [b, c]);
    assert [a] + [b, c] == [a, b, c];
    CommaAssoc(Render(a), Render(b), Render(c));
  }

  lemma CommaAssoc(x: string, y: string, z: string)
    ensures x + ", " + (y + ", " + z) == x + ", " + y + ", " + z
  {
  }

  /** `"aa", "bb"` lists two tags. */
  lemma ParseExampleTwo()
    ensures ParseMatchList(Some("\"aa\", \"bb\"")) == Success(["aa", "bb"])
  {
    var aa, bb := Tagged("aa", false), Tagged("bb", false);
    RenderTwo(aa, bb);
    assert Render(aa) + ", " + Render(bb) == "\"aa\", \"bb\"";
    ParseRenderedList([aa, bb]);
  }

  /** A bare `*` between tags is kept in place. */
  lemma ParseExampleWildcard()
    ensures ParseMatchList(Some("\"aa\", *, \"bb\"")) == Success(["aa", "*", "bb"])
  {
    var aa, bb := Tagged("aa", false), Tagged("bb", false);
    RenderThree(aa, AnyTag, bb);
    assert Render(aa) + ", " + Render(AnyTag) + ", " + Render(bb) == "\"aa\", *, \"bb\"";
    ParseRenderedList([aa, AnyTag, bb]);
  }

  /** Weak markers are dropped from every element. */
  lemma ParseExampleWeak()
    ensures ParseMatchList(Some("W/\"w1\", W/\"w2\"")) == Success(["w1", "w2"])
  {
    var w1, w2 := Tagged("w1", true), Tagged("w2", true);
    RenderTwo(w1, w2);
    assert Render(w1) + ", " + Render(w2) == "W/\"w1\", W/\"w2\"";
    ParseRenderedList([w1, w2]);
  }

  // ---------------------------------------------------------------------------
  // Properties of the validator
  // ---------------------------------------------------------------------------

  /** A non-empty `If-None-Match` list decides alone: `If-Match` is never consulted. */
  lemma NoneMatchTakesPrecedence(req: Request, l: seq<string>)
    requires ParseMatchList(Header(req, IfNoneMatch)) == Success(l) && |l| > 0
    ensures Valid(req) == Valid(WithoutHeader(req, IfMatch))
  {
    var req' := WithoutHeader(req, IfMatch);
    assert Header(req', IfNoneMatch) == Header(req, IfNoneMatch);
    assert CurrentTag(req') == CurrentTag(req);
    NoneMatchDecides(req, l);
    NoneMatchDecides(req', l);
  }

  lemma NoneMatchDecides(req: Request, l: seq<string>)
    requires ParseMatchList(Header(req, IfNoneMatch)) == Success(l) && |l| > 0
    ensures Valid(req) == Success(!Matches(req, CurrentTag(req), l))
  {
  }

  /** An `If-None-Match` with no recognised element (all dropped) falls through to `If-Match`. */
  lemma EmptyNoneMatchFallsThrough(req: Request)
    requires ParseMatchList(Header(req, IfNoneMatch)) == Success([])
    ensures Valid(req) == Valid(WithoutHeader(req, IfNoneMatch))
  {
    var req' := WithoutHeader(req, IfNoneMatch);
    assert Valid(req) == ValidIfMatch(req);
    assert Valid(req') == ValidIfMatch(req') by {
      assert Header(req', IfNoneMatch) == None;
    }
    IfMatchIgnoresNoneMatch(req);
  }

  /** The `If-Match` half of `valid` does not read `If-None-Match`. */
  lemma IfMatchIgnoresNoneMatch(req: Request)
    ensures ValidIfMatch(WithoutHeader(req, IfNoneMatch)) == ValidIfMatch(req)
  {
    var req' := WithoutHeader(req, IfNoneMatch);
    assert Header(req', IfMatch) == Header(req, IfMatch);
    IfMatchReads(req', req);
  }

  /** What the `If-Match` half of `valid` reads: that header, the tag, the query string and whether the resource exists. */
  lemma IfMatchReads(a: Request, b: Request)
    requires Header(a, IfMatch) == Header(b, IfMatch) && a.currentETag == b.currentETag
    requires a.queryString == b.queryString && a.isNullResource == b.isNullResource
    ensures ValidIfMatch(a) == ValidIfMatch(b)
  {
    var parsed := ParseMatchList(Header(a, IfMatch));
    assert parsed == ParseMatchList(Header(b, IfMatch));
    if parsed.Success? && |parsed.value| > 0 {
      assert CurrentTag(a) == CurrentTag(b) && HasQuery(a) == HasQuery(b);
      assert Matches(a, CurrentTag(a), parsed.value) == Matches(b, CurrentTag(b), parsed.value);
    }
  }

  /** `If-None-Match` with a wildcard passes exactly for a null resource. */
  lemma NoneMatchWildcard(req: Request, l: seq<string>)
    requires ParseMatchList(Header(req, IfNoneMatch)) == Success(l) && Wildcard in l
    ensures Valid(req) == Success(req.isNullResource)
  {
  }

  /**
    `If-None-Match` listing tags only fails exactly when the current tag is
    known and listed and the request has no query string.
   */
  lemma NoneMatchTags(req: Request, l: seq<string>)
    requires ParseMatchList(Header(req, IfNoneMatch)) == Success(l) && |l| > 0 && Wildcard !in l
    ensures Valid(req).Success?
    ensures !Valid(req).value <==> !HasQuery(req) && CurrentTag(req).Some? && CurrentTag(req).value in l
  {
  }

  /** `If-Match` with a wildcard (and no usable `If-None-Match`) passes exactly for an existing resource. */
  lemma MatchWildcard(req: Request, l: seq<string>)
    requires ParseMatchList(Header(req, IfNoneMatch)) == Success([])
    requires ParseMatchList(Header(req, IfMatch)) == Success(l) && Wildcard in l
    ensures Valid(req) == Success(!req.isNullResource)
  {
  }

  /**
    `If-Match` listing tags only passes exactly when the current tag is known
    and listed and the request has no query string; an absent tag never passes.
   */
  lemma MatchTags(req: Request, l: seq<string>)
    requires ParseMatchList(Header(req, IfNoneMatch)) == Success([])
    requires ParseMatchList(Header(req, IfMatch)) == Success(l) && |l| > 0 && Wildcard !in l
    ensures Valid(req).Success?
    ensures Valid(req).value <==> !HasQuery(req) && CurrentTag(req).Some? && CurrentTag(req).value in l
  {
  }

  /**
    A query string makes every tag list miss: a tags-only `If-None-Match`
    always passes and a tags-only `If-Match` always fails, whatever the
    current tag. Wildcard lists are unaffected (`NoneMatchWildcard`, `MatchWildcard`).
   */
  lemma QueryStringDefeatsTagLists(req: Request, l: seq<string>)
    requires HasQuery(req) && |l| > 0 && Wildcard !in l
    ensures ParseMatchList(Header(req, IfNoneMatch)) == Success(l) ==> Valid(req) == Success(true)
    ensures ParseMatchList(Header(req, IfNoneMatch)) == Success([]) && ParseMatchList(Header(req, IfMatch)) == Success(l) ==>
              Valid(req) == Success(false)
  {
  }

  /** `If-None-Match` naming the current tag (strong or weak form) fails an existing resource. */
  lemma NoneMatchCurrentTagFails(req: Request, weak: bool)
    requires !HasQuery(req) && !req.isNullResource
    requires CurrentTag(req).Some? && |CurrentTag(req).value| > 0 && ',' !in CurrentTag(req).value
    requires Header(req, IfNoneMatch) == Some(Quote(CurrentTag(req).value, weak))
    ensures Valid(req) == Success(false)
  {
    var tag := CurrentTag(req).value;
    ParseQuotedTag(tag, weak);
    assert Matches(req, CurrentTag(req), [tag]);
  }

  /** `If-Match` naming the current tag (and no `If-None-Match`) passes. */
  lemma MatchCurrentTagPasses(req: Request, weak: bool)
    requires !HasQuery(req) && !req.isNullResource && IfNoneMatch !in req.headers
    requires CurrentTag(req).Some? && |CurrentTag(req).value| > 0 && ',' !in CurrentTag(req).value
    requires Header(req, IfMatch) == Some(Quote(CurrentTag(req).value, weak))
    ensures Valid(req) == Success(true)
  {
    var tag := CurrentTag(req).value;
    ParseQuotedTag(tag, weak);
    assert Matches(req, CurrentTag(req), [tag]);
  }

  /**
    The `ETag` the validator advertises, sent back unchanged by a client,
    fails `If-None-Match` (the client's copy is current) and passes
    `If-Match`, as long as the resource still has that tag.
   */
  lemma EchoedETag(req: Request, resp: Response)
    requires !HasQuery(req) && !req.isNullResource && ETagHeader !in resp.headers
    requires CurrentTag(req).Some? && CurrentTag(req).value != "" && ',' !in CurrentTag(req).value
    ensures ETagHeader in UpdateResponse(req, resp).headers
    ensures Valid(req.(headers := map[IfNoneMatch := UpdateResponse(req, resp).headers[ETagHeader]])) == Success(false)
    ensures Valid(req.(headers := map[IfMatch := UpdateResponse(req, resp).headers[ETagHeader]])) == Success(true)
  {
    var weak := req.currentETag.value.weak;
    var sent := UpdateResponse(req, resp).headers[ETagHeader];
    assert sent == Quote(CurrentTag(req).value, weak);
    NoneMatchCurrentTagFails(req.(headers := map[IfNoneMatch := sent]), weak);
    MatchCurrentTagPasses(req.(headers := map[IfMatch := sent]), weak);
  }

  /** An element that strips to itself and neither is nor can become a quoted tag is dropped. */
  lemma HalfQuoteDropped(piece: string)
    requires Trimmed(piece) && |piece| >= 2 && piece[..2] != "W/" && piece != Wildcard
    requires piece[0] != '"' || piece[|piece| - 1] != '"'
    ensures ParseElement(piece) == Success(None)
  {
    assert "" + piece + "" == piece;
    StripPadded("", piece, "");
    assert DropWeak(piece) == piece;
  }

  /** The tag `a,b`, quoted, is read back as the two pieces `"a` and `b"`, and both are dropped. */
  lemma CommaTagSplitsApart(sent: string)
    requires sent == Quote("a,b", false)
    ensures ParseMatchList(Some(sent)) == Success([])
  {
    var first, second := "\"a", "b\"";
    assert sent == first + [','] + second;
    assert first[..2] == first && second[..2] == second;
    HalfQuoteDropped(first);
    HalfQuoteDropped(second);
    ParseMatchListSingle(second);
    ParseMatchListFirst(first, second);
  }

  /**
    The comma-free condition of `EchoedETag` is needed: the list is split on
    commas before quotes are looked at, so a tag such as `a,b` is advertised
    as `"a,b"` but read back as the pieces `"a` and `b"`, neither of which is
    a quoted tag. Echoing that tag in `If-None-Match` passes the request
    where a comma-free tag fails it.
   */
  lemma EchoedCommaTagPasses(req: Request, resp: Response)
    requires !HasQuery(req) && !req.isNullResource && ETagHeader !in resp.headers
    requires req.currentETag == Some(ETagInfo(Some("a,b"), false))
    ensures ETagHeader in UpdateResponse(req, resp).headers
    ensures ParseMatchList(Some(UpdateResponse(req, resp).headers[ETagHeader])) == Success([])
    ensures Valid(req.(headers := map[IfNoneMatch := UpdateResponse(req, resp).headers[ETagHeader]])) == Success(true)
  {
    Advertised(req, resp);
    var sent := UpdateResponse(req, resp).headers[ETagHeader];
    CommaTagSplitsApart(sent);
    NothingListedPasses(req, sent);
  }

  lemma Advertised(req: Request, resp: Response)
    requires !HasQuery(req) && ETagHeader !in resp.headers
    requires CurrentTag(req).Some? && CurrentTag(req).value != ""
    ensures ETagHeader in UpdateResponse(req, resp).headers
    ensures UpdateResponse(req, resp).headers[ETagHeader] == Quote(CurrentTag(req).value, req.currentETag.value.weak)
  {
  }

  /** A header value that yields no element, alone in `If-None-Match`, lets the request through. */
  lemma NothingListedPasses(req: Request, sent: string)
    requires ParseMatchList(Some(sent)) == Success([])
    ensures Valid(req.(headers := map[IfNoneMatch := sent])) == Success(true)
  {
    var echo := req.(headers := map[IfNoneMatch := sent]);
    assert echo.headers.Keys == {IfNoneMatch} && echo.headers[IfNoneMatch] == sent;
    NoListPasses(echo);
  }

  /** A request whose `If-None-Match` yields no element and which has no `If-Match` is valid. */
  lemma NoListPasses(req: Request)
    requires ParseMatchList(Header(req, IfNoneMatch)) == Success([]) && IfMatch !in req.headers
    ensures Valid(req) == Success(true)
  {
    assert ValidIfMatch(req) == Success(true);
  }
}

=== FILE: gate.dfy ===
/**
  The conditional-request gate: runs an ordered list of validators around
  one handler call, rejecting the request only when every validator that
  applies to it finds it invalid.
 */
module Gate {
  import opened Wrappers
  import opened Http
  import ETag
  import LastModification

  /** The validators the package registers. */
  datatype Validator = ETagValidator | ModifiedSinceValidator

  /** The initial status of the gate's loop, overwritten by every invalid validator. */
  const Unset: int := 999

  // ---------------------------------------------------------------------------
  // Dispatch over the shared capability set
  // ---------------------------------------------------------------------------

  predicate Applies(v: Validator, req: Request) {
    match v
    case ETagValidator => ETag.Evaluate(req)
    case ModifiedSinceValidator => LastModification.Evaluate(req)
  }

  function Check(v: Validator, req: Request, dates: LastModification.HttpDates): Result<bool, Error> {
    match v
    case ETagValidator => ETag.Valid(req)
    case ModifiedSinceValidator => LastModification.Valid(req, dates)
  }

  function InvalidStatus(v: Validator, req: Request): int {
    match v
    case ETagValidator => ETag.InvalidStatus(req)
    case ModifiedSinceValidator => LastModification.InvalidStatus(req)
  }

  function Update(v: Validator, req: Request, dates: LastModification.HttpDates, resp: Response): Response {
    match v
    case ETagValidator => ETag.UpdateResponse(req, resp)
    case ModifiedSinceValidator => LastModification.UpdateResponse(req, resp, dates)
  }

  /**
    What one validator says about a request: nothing, when it does not
    apply; otherwise its verdict (or the error it raised) together with the
    status it would answer with.
   */
  datatype Answer = Skipped | Answered(valid: Result<bool, Error>, status: int)

  function Ask(v: Validator, req: Request, dates: LastModification.HttpDates): Answer {
    if Applies(v, req) then Answered(Check(v, req, dates), InvalidStatus(v, req)) else Skipped
  }

  function AskAll(vs: seq<Validator>, req: Request, dates: LastModification.HttpDates): (ans: seq<Answer>)
    ensures |ans| == |vs|
    ensures forall i :: 0 <= i < |vs| ==> ans[i] == Ask(vs[i], req, dates)
  {
    seq(|vs|, i requires 0 <= i < |vs| => Ask(vs[i], req, dates))
  }

  // ---------------------------------------------------------------------------
  // What the gate decides, stated over the whole list of answers
  // ---------------------------------------------------------------------------

  /** Answer `i` finds the request invalid. */
  ghost predicate Fails(ans: seq<Answer>, i: int)
    requires 0 <= i < |ans|
  {
    ans[i].Answered? && ans[i].valid == Success(false)
  }

  /** No applicable validator raised. */
  ghost predicate Decidable(ans: seq<Answer>) {
    forall i :: 0 <= i < |ans| && ans[i].Answered? ==> ans[i].valid.Success?
  }

  ghost predicate AnyApplies(ans: seq<Answer>) {
    exists i :: 0 <= i < |ans| && ans[i].Answered?
  }

  /** Every applicable validator finds the request invalid. */
  ghost predicate AllApplicableFail(ans: seq<Answer>) {
    forall i :: 0 <= i < |ans| && ans[i].Answered? ==> Fails(ans, i)
  }

  ghost predicate NoneFails(ans: seq<Answer>) {
    forall i :: 0 <= i < |ans| ==> !Fails(ans, i)
  }

  /** The unanimity rule: some validator applies and every one that does fails the request. */
  ghost predicate Unanimous(ans: seq<Answer>) {
    AnyApplies(ans) && AllApplicableFail(ans)
  }

  /** Answer `k` is the last in list order to find the request invalid. */
  ghost predicate LastFailing(ans: seq<Answer>, k: int) {
    0 <= k < |ans| && Fails(ans, k) && forall j :: k < j < |ans| ==> !Fails(ans, j)
  }

  // Each whole-list predicate, split into the list without its last answer and that answer.

  lemma ExtendDecidable(ans: seq<Answer>)
    requires |ans| > 0
    ensures Decidable(ans) <==> Decidable(ans[..|ans| - 1]) && (ans[|ans| - 1].Answered? ==> ans[|ans| - 1].valid.Success?)
  {
    var p := ans[..|ans| - 1];
    assert forall i :: 0 <= i < |p| ==> p[i] == ans[i];
  }

  lemma ExtendApplies(ans: seq<Answer>)
    requires |ans| > 0
    ensures AnyApplies(ans) <==> AnyApplies(ans[..|ans| - 1]) || ans[|ans| - 1].Answered?
  {
    var p := ans[..|ans| - 1];
    assert forall i :: 0 <= i < |p| ==> p[i] == ans[i];
    if AnyApplies(ans) && !ans[|ans| - 1].Answered? {
      var i :| 0 <= i < |ans| && ans[i].Answered?;
      assert i < |p| && p[i].Answered?;
    }
  }

  lemma ExtendAllFail(ans: seq<Answer>)
    requires |ans| > 0
    ensures AllApplicableFail(ans) <==>
              AllApplicableFail(ans[..|ans| - 1]) && (ans[|ans| - 1].Answered? ==> ans[|ans| - 1].valid == Success(false))
  {
    var p := ans[..|ans| - 1];
    assert forall i :: 0 <= i < |p| ==> p[i] == ans[i] && (Fails(p, i) <==> Fails(ans, i));
  }

  lemma ExtendNoneFails(ans: seq<Answer>)
    requires |ans| > 0
    ensures NoneFails(ans) <==> NoneFails(ans[..|ans| - 1]) && !Fails(ans, |ans| - 1)
  {
    var p := ans[..|ans| - 1];
    assert forall i :: 0 <= i < |p| ==> p[i] == ans[i] && (Fails(p, i) <==> Fails(ans, i));
  }

  lemma ExtendLastFailing(ans: seq<Answer>, k: int)
    requires |ans| > 0
    ensures LastFailing(ans, k) <==>
              if Fails(ans, |ans| - 1) then k == |ans| - 1 else LastFailing(ans[..|ans| - 1], k)
  {
    var p := ans[..|ans| - 1];
    assert forall i :: 0 <= i < |p| ==> p[i] == ans[i] && (Fails(p, i) <==> Fails(ans, i));
  }

  // ---------------------------------------------------------------------------
  // The gate
  // ---------------------------------------------------------------------------

  /** The loop's counters: applicable validators, invalid ones, and the chosen status. */
  datatype Tally = Tally(evaluated: nat, invalid: nat, status: int)

  /**
    The gate's first loop, over the answers in list order: each applicable
    validator is counted; each invalid one is counted and overwrites the
    status. A raising validator aborts the loop.
   */
  function Count(ans: seq<Answer>): Result<Tally, Error>
    decreases |ans|
  {
    if |ans| == 0 then Success(Tally(0, 0, Unset))
    else
      var t :- Count(ans[..|ans| - 1]);
      match ans[|ans| - 1]
      case Skipped => Success(t)
      case Answered(valid, status) =>
        var ok :- valid;
        if ok then Success(t.(evaluated := t.evaluated + 1))
        else Success(Tally(t.evaluated + 1, t.invalid + 1, status))
  }

  /** `CountStatus` for every last failing answer at once. */
  lemma CountStatusAll(ans: seq<Answer>)
    requires Count(ans).Success?
    ensures forall k :: LastFailing(ans, k) ==> Count(ans).value.status == ans[k].status
  {
    forall k | LastFailing(ans, k)
      ensures Count(ans).value.status == ans[k].status
    {
      CountStatus(ans, k);
    }
  }

  /** The loop completes exactly when no applicable validator raises, and an error it reports is one a validator raised. */
  lemma {:induction false} CountDecides(ans: seq<Answer>)
    ensures Count(ans).Success? <==> Decidable(ans)
    ensures Count(ans).Failure? ==>
              exists i :: 0 <= i < |ans| && ans[i].Answered? && ans[i].valid == Failure(Count(ans).error)
    decreases |ans|
  {
    if |ans| > 0 {
      var p := ans[..|ans| - 1];
      CountDecides(p);
      ExtendDecidable(ans);
      if Count(p).Failure? {
        var i :| 0 <= i < |p| && p[i].Answered? && p[i].valid == Failure(Count(p).error);
        assert ans[i] == p[i];
      }
    }
  }

  /**
    The counters after the loop: no more invalid validators than applicable
    ones, none applicable exactly when nothing applies, and as many invalid
    as applicable exactly when every applicable validator fails the request.
   */
  lemma {:induction false} CountApplicable(ans: seq<Answer>)
    requires Count(ans).Success?
    ensures Count(ans).value.invalid <= Count(ans).value.evaluated
    ensures Count(ans).value.evaluated == 0 <==> !AnyApplies(ans)
    ensures Count(ans).value.invalid == Count(ans).value.evaluated <==> AllApplicableFail(ans)
    decreases |ans|
  {
    if |ans| > 0 {
      CountApplicable(ans[..|ans| - 1]);
      ExtendApplies(ans);
      ExtendAllFail(ans);
    }
  }

  /** No invalid validator was counted exactly when none fails the request, and then the status is still the initial one. */
  lemma {:induction false} CountInvalid(ans: seq<Answer>)
    requires Count(ans).Success?
    ensures Count(ans).value.invalid == 0 <==> NoneFails(ans)
    ensures Count(ans).value.invalid == 0 ==> Count(ans).value.status == Unset
    decreases |ans|
  {
    if |ans| > 0 {
      CountInvalid(ans[..|ans| - 1]);
      ExtendNoneFails(ans);
    }
  }

  /** The status after the loop is that of the last answer, in list order, that finds the request invalid. */
  lemma {:induction false} CountStatus(ans: seq<Answer>, k: int)
    requires Count(ans).Success? && LastFailing(ans, k)
    ensures Count(ans).value.status == ans[k].status
    decreases |ans|
  {
    var n := |ans|;
    ExtendLastFailing(ans, k);
    if k < n - 1 {
      CountStatus(ans[..n - 1], k);
    }
  }

  /** The gate's second loop: every validator's `updateResponse`, in list order. */
  function UpdateAll(vs: seq<Validator>, req: Request, dates: LastModification.HttpDates, resp: Response): (r: Response)
    ensures r.status == resp.status
    ensures forall h :: h in resp.headers ==> h in r.headers && r.headers[h] == resp.headers[h]
    ensures forall h :: h in r.headers && h !in resp.headers ==> h == ETagHeader || h == LastModifiedHeader
    ensures HasQuery(req) ==> r == resp
    decreases |vs|
  {
    if |vs| == 0 then resp
    else UpdateAll(vs[1..], req, dates, Update(vs[0], req, dates, resp))
  }

  /** The entity-tag validator is registered and has a non-empty tag to advertise. */
  predicate AdvertisesETag(vs: seq<Validator>, req: Request) {
    ETagValidator in vs && !HasQuery(req) && ETag.CurrentTag(req).Some? && ETag.CurrentTag(req).value != ""
  }

  /** The modification validator is registered and has a timestamp to advertise. */
  predicate AdvertisesLastModified(vs: seq<Validator>, req: Request) {
    ModifiedSinceValidator in vs && !HasQuery(req) && LastModification.LastModified(req).Some?
  }

  /** Starting without one, the response ends with an `ETag` exactly when one is advertised, and it is the quoted current tag. */
  lemma {:induction false} UpdateAllETag(vs: seq<Validator>, req: Request, dates: LastModification.HttpDates, resp: Response)
    requires ETagHeader !in resp.headers
    ensures var r := UpdateAll(vs, req, dates, resp);
            && (ETagHeader in r.headers <==> AdvertisesETag(vs, req))
            && (ETagHeader in r.headers ==>
                  r.headers[ETagHeader] == ETag.Quote(ETag.CurrentTag(req).value, req.currentETag.value.weak))
    decreases |vs|
  {
    if |vs| > 0 {
      var next := Update(vs[0], req, dates, resp);
      if ETagHeader in next.headers {
        assert vs[0] == ETagValidator;
      } else {
        UpdateAllETag(vs[1..], req, dates, next);
        assert forall v :: v in vs[1..] ==> v in vs;
        if AdvertisesETag(vs, req) {
          assert vs[0] != ETagValidator;
          assert ETagValidator in vs[1..];
        }
      }
    }
  }

  /** Starting without one, the response ends with a `Last-Modified` exactly when one is advertised, and it is the formatted timestamp. */
  lemma {:induction false} UpdateAllLastModified(vs: seq<Validator>, req: Request, dates: LastModification.HttpDates, resp: Response)
    requires LastModifiedHeader !in resp.headers
    ensures var r := UpdateAll(vs, req, dates, resp);
            && (LastModifiedHeader in r.headers <==> AdvertisesLastModified(vs, req))
            && (LastModifiedHeader in r.headers ==>
                  r.headers[LastModifiedHeader] == dates.format(LastModification.LastModified(req).value))
    decreases |vs|
  {
    if |vs| > 0 {
      var next := Update(vs[0], req, dates, resp);
      if LastModifiedHeader in next.headers {
        assert vs[0] == ModifiedSinceValidator;
      } else {
        UpdateAllLastModified(vs[1..], req, dates, next);
        assert forall v :: v in vs[1..] ==> v in vs;
        if AdvertisesLastModified(vs, req) {
          assert vs[0] != ModifiedSinceValidator;
          assert ModifiedSinceValidator in vs[1..];
        }
      }
    }
  }

  /**
    What the handler produces: its result, the response as it left it, and
    the entity's tag and modification time as they stand after the call (a
    handler that writes the entity changes them).
   */
  datatype Handled = Handled(body: string, response: Response,
                             currentETag: Option<ETagInfo>, currentModification: Option<ModificationInfo>)

  /** The request as the updaters see it once the handler has run: the entity's facts are looked up again. */
  function AfterHandler(req: Request, handled: Handled): Request {
    req.(currentETag := handled.currentETag, currentModification := handled.currentModification)
  }

  /** What the gate returns: the body, the final response, and how many times the handler ran. */
  datatype Outcome = Outcome(body: string, response: Response, handlerCalls: nat)

  /** The unanimity rule applied to the validators' answers for this request. */
  ghost predicate Rejects(vs: seq<Validator>, req: Request, dates: LastModification.HttpDates) {
    Unanimous(AskAll(vs, req, dates))
  }

  /**
    `validate`: reject (set the chosen status, return an empty body, skip
    the handler) when every applicable validator finds the request invalid;
    otherwise run the handler once. Either way every validator then updates
    the response, from the entity as it stands by then. A validator that
    raises aborts the whole call.
   */
  function Validate(vs: seq<Validator>, req: Request, dates: LastModification.HttpDates,
                    resp: Response, handler: Response -> Handled): (r: Result<Outcome, Error>)
    ensures r.Success? <==> Decidable(AskAll(vs, req, dates))
    ensures r.Success? && Rejects(vs, req, dates) ==>
              r.value.handlerCalls == 0 && r.value.body == "" &&
              forall k :: LastFailing(AskAll(vs, req, dates), k) ==> r.value.response.status == Some(InvalidStatus(vs[k], req))
    ensures r.Success? && Rejects(vs, req, dates) ==>
              forall h :: h in resp.headers ==> h in r.value.response.headers && r.value.response.headers[h] == resp.headers[h]
    ensures r.Success? && !Rejects(vs, req, dates) ==>
              r.value.handlerCalls == 1 && r.value.body == handler(resp).body &&
              r.value.response.status == handler(resp).response.status
    ensures r.Success? && !Rejects(vs, req, dates) ==>
              forall h :: h in handler(resp).response.headers ==>
                h in r.value.response.headers && r.value.response.headers[h] == handler(resp).response.headers[h]
  {
    var ans := AskAll(vs, req, dates);
    CountDecides(ans);
    var t :- Count(ans);
    CountApplicable(ans);
    CountStatusAll(ans);
    if t.evaluated > 0 && t.evaluated == t.invalid then
      Success(Outcome("", UpdateAll(vs, req, dates, resp.(status := Some(t.status))), 0))
    else
      var handled := handler(resp);
      Success(Outcome(handled.body, UpdateAll(vs, AfterHandler(req, handled), dates, handled.response), 1))
  }

  // ---------------------------------------------------------------------------
  // Properties
  // ---------------------------------------------------------------------------

  /** When the rule rejects, some validator is the last to fail the request. */
  lemma {:induction false} UnanimousHasLastFailing(ans: seq<Answer>)
    requires Unanimous(ans)
    ensures exists k :: LastFailing(ans, k)
    decreases |ans|
  {
    var n := |ans|;
    ExtendApplies(ans);
    ExtendAllFail(ans);
    if !Fails(ans, n - 1) {
      var p := ans[..n - 1];
      assert !ans[n - 1].Answered?;
      assert Unanimous(p);
      UnanimousHasLastFailing(p);
      var k :| LastFailing(p, k);
      ExtendLastFailing(ans, k);
    } else {
      assert LastFailing(ans, n - 1);
    }
  }

  /**
    On rejection the status is that of the LAST validator in list order that
    found the request invalid, and so always 304 or 412: the loop's initial
    999 never reaches the response.
   */
  lemma RejectionStatus(vs: seq<Validator>, req: Request, dates: LastModification.HttpDates,
                        resp: Response, handler: Response -> Handled)
    requires Validate(vs, req, dates, resp, handler).Success? && Rejects(vs, req, dates)
    ensures exists k :: LastFailing(AskAll(vs, req, dates), k) &&
              Validate(vs, req, dates, resp, handler).value.response.status == Some(InvalidStatus(vs[k], req))
    ensures Validate(vs, req, dates, resp, handler).value.response.status in {Some(304), Some(412)}
  {
    UnanimousHasLastFailing(AskAll(vs, req, dates));
  }

  /**
    A rejection, stated whole: no handler call, an empty body, and the
    response the updaters make of the caller's response carrying the last
    failing validator's status.
   */
  lemma RejectedOutcome(vs: seq<Validator>, req: Request, dates: LastModification.HttpDates,
                        resp: Response, handler: Response -> Handled, k: int)
    requires Decidable(AskAll(vs, req, dates)) && Rejects(vs, req, dates)
    requires LastFailing(AskAll(vs, req, dates), k)
    ensures Validate(vs, req, dates, resp, handler) ==
            Success(Outcome("", UpdateAll(vs, req, dates, resp.(status := Some(InvalidStatus(vs[k], req)))), 0))
  {
    var ans := AskAll(vs, req, dates);
    CountDecides(ans);
    CountStatus(ans, k);
    assert Count(ans).value.status == ans[k].status == InvalidStatus(vs[k], req);
  }

  /**
    The other half: when the rule does not reject, the handler's response
    goes through the updaters, which see the entity as the handler left it.
   */
  lemma AcceptedOutcome(vs: seq<Validator>, req: Request, dates: LastModification.HttpDates,
                        resp: Response, handler: Response -> Handled)
    requires Decidable(AskAll(vs, req, dates)) && !Rejects(vs, req, dates)
    ensures Validate(vs, req, dates, resp, handler) ==
            Success(Outcome(handler(resp).body, UpdateAll(vs, AfterHandler(req, handler(resp)), dates, handler(resp).response), 1))
  {
  }

  /**
    After an accepted request the advertised `ETag` is the tag the entity has
    once the handler has run, not the one the validators compared against.
   */
  lemma AcceptedETagIsCurrent(vs: seq<Validator>, req: Request, dates: LastModification.HttpDates,
                              resp: Response, handler: Response -> Handled)
    requires Decidable(AskAll(vs, req, dates)) && !Rejects(vs, req, dates)
    requires ETagHeader !in handler(resp).response.headers
    ensures var r := Validate(vs, req, dates, resp, handler).value.response;
            var after := handler(resp).currentETag;
            && (ETagHeader in r.headers <==>
                  ETagValidator in vs && !HasQuery(req) && after.Some? && after.value.etag.Some? && after.value.etag.value != "")
            && (ETagHeader in r.headers ==> r.headers[ETagHeader] == ETag.Quote(after.value.etag.value, after.value.weak))
  {
    var handled := handler(resp);
    UpdateAllETag(vs, AfterHandler(req, handled), dates, handled.response);
  }

  /** Likewise the advertised `Last-Modified` is the modification time the entity has after the handler. */
  lemma AcceptedLastModifiedIsCurrent(vs: seq<Validator>, req: Request, dates: LastModification.HttpDates,
                                      resp: Response, handler: Response -> Handled)
    requires Decidable(AskAll(vs, req, dates)) && !Rejects(vs, req, dates)
    requires LastModifiedHeader !in handler(resp).response.headers
    ensures var r := Validate(vs, req, dates, resp, handler).value.response;
            var after := handler(resp).currentModification;
            && (LastModifiedHeader in r.headers <==>
                  ModifiedSinceValidator in vs && !HasQuery(req) && after.Some? && after.value.lastModified.Some?)
            && (LastModifiedHeader in r.headers ==> r.headers[LastModifiedHeader] == dates.format(after.value.lastModified.value))
  {
    var handled := handler(resp);
    UpdateAllLastModified(vs, AfterHandler(req, handled), dates, handled.response);
  }

  /** Through the gate, `valid` only runs where `evaluate` holds, so the only error that escapes is the parser's. */
  lemma OnlyParserErrorsEscape(vs: seq<Validator>, req: Request, dates: LastModification.HttpDates,
                               resp: Response, handler: Response -> Handled)
    requires Validate(vs, req, dates, resp, handler).Failure?
    ensures Validate(vs, req, dates, resp, handler).error == EmptyMatchElement
    ensures ETagValidator in vs && ETag.Evaluate(req)
  {
    var ans := AskAll(vs, req, dates);
    CountDecides(ans);
    var i :| 0 <= i < |ans| && ans[i].Answered? && ans[i].valid == Failure(Count(ans).error);
    assert vs[i] == ETagValidator;
  }

  /** With no applicable validator the handler always runs and the gate leaves the status alone. */
  lemma NothingApplies(vs: seq<Validator>, req: Request, dates: LastModification.HttpDates,
                       resp: Response, handler: Response -> Handled)
    requires forall i :: 0 <= i < |vs| ==> !Applies(vs[i], req)
    ensures Validate(vs, req, dates, resp, handler).Success?
    ensures Validate(vs, req, dates, resp, handler).value.handlerCalls == 1
    ensures Validate(vs, req, dates, resp, handler).value.response.status == handler(resp).response.status
  {
    assert !AnyApplies(AskAll(vs, req, dates));
  }

  /** One applicable validator that passes is enough for the handler to run: a mixed verdict is not a rejection. */
  lemma OnePassIsEnough(vs: seq<Validator>, req: Request, dates: LastModification.HttpDates,
                        resp: Response, handler: Response -> Handled, i: int)
    requires Validate(vs, req, dates, resp, handler).Success?
    requires 0 <= i < |vs| && Applies(vs[i], req) && Check(vs[i], req, dates) == Success(true)
    ensures Validate(vs, req, dates, resp, handler).value.handlerCalls == 1
    ensures Validate(vs, req, dates, resp, handler).value.response.status == handler(resp).response.status
  {
    var ans := AskAll(vs, req, dates);
    assert ans[i].Answered? && !Fails(ans, i);
  }
}

=== FILE: http.dfy ===
/**
  The slice of an HTTP request and response that the conditional-request
  gate reads and writes. Header names are enumerated, so the case-insensitive
  lookup of the publisher is settled once here.
 */
module Http {
  import opened Wrappers

  /** The conditional request headers the validators consult. */
  datatype RequestHeader = IfMatch | IfNoneMatch | IfModifiedSince | IfUnmodifiedSince

  /** Response headers: the two the validators write, and any other the handler sets. */
  datatype ResponseHeader = ETagHeader | LastModifiedHeader | OtherHeader(name: string)

  /** The resource's current entity tag, as an `IETag` adapter reports it. */
  datatype ETagInfo = ETagInfo(etag: Option<string>, weak: bool)

  /**
    The resource's last modification time, as an `ILastModificationDate`
    adapter reports it, in whole seconds since the epoch (UTC).
   */
  datatype ModificationInfo = ModificationInfo(lastModified: Option<int>)

  /**
    A request together with the facts about its target resource that the
    validators look up: whether it is a null (not yet created) resource and
    what the two adapters report (`None` when no adapter is registered).
    `verb` is the request method (`GET`, `HEAD`, ...).
   */
  datatype Request = Request(
    headers: map<RequestHeader, string>,
    queryString: string,
    verb: string,
    isNullResource: bool,
    currentETag: Option<ETagInfo>,
    currentModification: Option<ModificationInfo>)

  /** A response: its status (`None` while unset) and its headers. */
  datatype Response = Response(status: Option<int>, headers: map<ResponseHeader, string>)

  /** The two exceptions the core can raise. */
  datatype Error =
    | EmptyMatchElement   // IndexError: an entity-tag list element is empty
    | ProtocolBroken      // ValueError: valid() called although evaluate() is false

  /** `request.getHeader(name, None)`. */
  function Header(req: Request, h: RequestHeader): Option<string> {
    if h in req.headers then Some(req.headers[h]) else None
  }

  /** True when the request URL carries a (non-empty) query string. */
  predicate HasQuery(req: Request) {
    req.queryString != ""
  }

  /** The request with one header removed. */
  function WithoutHeader(req: Request, h: RequestHeader): (r: Request)
    ensures h !in r.headers
    ensures forall k :: k != h ==> Header(r, k) == Header(req, k)
  {
    req.(headers := req.headers - {h})
  }

  /** The response with one header set, replacing any earlier value. */
  function SetHeader(resp: Response, h: ResponseHeader, value: string): (r: Response)
    ensures r.status == resp.status
    ensures h in r.headers && r.headers[h] == value
    ensures forall k :: k != h ==> (k in r.headers <==> k in resp.headers)
    ensures forall k :: k != h && k in resp.headers ==> r.headers[k] == resp.headers[k]
  {
    resp.(headers := resp.headers[h := value])
  }
}

=== FILE: lastmodification.dfy ===
/**
  The modification-time validator: `If-Modified-Since` and
  `If-Unmodified-Since` (sections 14.25 and 14.28 of RFC 2616), and the
  `Last-Modified` response header (section 14.29).
 */
module LastModification {
  import opened Wrappers
  import opened Http
  import opened Text

  /**
    The HTTP-date conversions the validator borrows from its date library
    (section 3.3.1 of RFC 2616), over whole seconds since the epoch: a
    partial parser, absent on text it cannot read, and a formatter.
   */
  datatype HttpDates = HttpDates(parse: string -> Option<int>, format: int -> string)

  /** A parser and formatter that agree: formatted dates parse back, and carry no `;`. */
  ghost predicate Coherent(dates: HttpDates) {
    forall t :: dates.parse(dates.format(t)) == Some(t) && ';' !in dates.format(t)
  }

  /** The date a conditional header names: the text before any `;` parameter, parsed. */
  function HeaderDate(value: string, dates: HttpDates): Option<int> {
    dates.parse(BeforeFirst(value, ';'))
  }

  /**
    `ifModifiedSince`: true when the header is absent or its date cannot be
    parsed, otherwise whether the resource is strictly newer than the date.
   */
  function ModifiedSince(req: Request, mtime: int, h: RequestHeader, dates: HttpDates): (r: bool)
    ensures Header(req, h).None? ==> r
    ensures Header(req, h).Some? && HeaderDate(Header(req, h).value, dates).None? ==> r
    ensures Header(req, h).Some? && HeaderDate(Header(req, h).value, dates).Some? ==>
              (r <==> mtime > HeaderDate(Header(req, h).value, dates).value)
  {
    match Header(req, h)
    case None => true
    case Some(value) =>
      match HeaderDate(value, dates)
      case None => true
      case Some(since) => mtime > since
  }

  /** `evaluate`: the request carries `If-Modified-Since` or `If-Unmodified-Since`. */
  predicate Evaluate(req: Request) {
    IfModifiedSince in req.headers || IfUnmodifiedSince in req.headers
  }

  /** The resource's modification time, absent when no adapter answers or it reports none. */
  function LastModified(req: Request): Option<int> {
    match req.currentModification
    case None => None
    case Some(info) => info.lastModified
  }

  /**
    `valid`: a query string or an unknown modification time lets the request
    through; otherwise `If-Modified-Since` decides if present, else the
    negation of the same test on `If-Unmodified-Since`; with neither header
    the validator was called against its own `evaluate` and raises.
   */
  function Valid(req: Request, dates: HttpDates): (r: Result<bool, Error>)
    ensures HasQuery(req) || LastModified(req).None? ==> r == Success(true)
    ensures r.Failure? <==> !HasQuery(req) && LastModified(req).Some? && !Evaluate(req)
    ensures r.Failure? ==> r.error == ProtocolBroken
  {
    if HasQuery(req) then Success(true)
    else
      match LastModified(req)
      case None => Success(true)
      case Some(mtime) =>
        if IfModifiedSince in req.headers then Success(ModifiedSince(req, mtime, IfModifiedSince, dates))
        else if IfUnmodifiedSince in req.headers then Success(!ModifiedSince(req, mtime, IfUnmodifiedSince, dates))
        else Failure(ProtocolBroken)
  }

  /** `invalidStatus`: 304 Not Modified, for both headers and every method. */
  function InvalidStatus(req: Request): (r: int)
    ensures r == 304
  {
    304
  }

  /**
    `updateResponse`: advertise the modification time in `Last-Modified`,
    unless the header is already set, the request has a query string, or the
    time is unknown.
   */
  function UpdateResponse(req: Request, resp: Response, dates: HttpDates): (r: Response)
    ensures r.status == resp.status
    ensures LastModifiedHeader in resp.headers || HasQuery(req) ==> r == resp
    ensures forall h :: h != LastModifiedHeader ==> (h in r.headers <==> h in resp.headers)
    ensures forall h :: h != LastModifiedHeader && h in resp.headers ==> r.headers[h] == resp.headers[h]
    ensures LastModifiedHeader !in resp.headers && !HasQuery(req) ==>
              (LastModifiedHeader in r.headers <==> LastModified(req).Some?)
    ensures LastModifiedHeader in r.headers && LastModifiedHeader !in resp.headers ==>
              r.headers[LastModifiedHeader] == dates.format(LastModified(req).value)
  {
    if LastModifiedHeader !in resp.headers && !HasQuery(req) then
      match LastModified(req)
      case Some(mtime) => SetHeader(resp, LastModifiedHeader, dates.format(mtime))
      case None => resp
    else resp
  }

  // ---------------------------------------------------------------------------
  // Properties
  // ---------------------------------------------------------------------------

  /** The conditions under which the two headers are actually compared. */
  ghost predicate Comparable(req: Request) {
    !HasQuery(req) && LastModified(req).Some?
  }

  /**
    `If-Modified-Since` with a readable date passes exactly when the resource
    is strictly newer: equal or older times fail.
   */
  lemma ModifiedSinceRule(req: Request, dates: HttpDates, since: int)
    requires Comparable(req) && IfModifiedSince in req.headers
    requires HeaderDate(req.headers[IfModifiedSince], dates) == Some(since)
    ensures Valid(req, dates) == Success(LastModified(req).value > since)
  {
  }

  /** An unreadable `If-Modified-Since` date lets the request through. */
  lemma ModifiedSinceUnreadable(req: Request, dates: HttpDates)
    requires IfModifiedSince in req.headers && HeaderDate(req.headers[IfModifiedSince], dates).None?
    ensures Valid(req, dates) == Success(true)
  {
  }

  /**
    `If-Unmodified-Since` (without `If-Modified-Since`) with a readable date
    passes exactly when the resource is not newer than the date.
   */
  lemma UnmodifiedSinceRule(req: Request, dates: HttpDates, since: int)
    requires Comparable(req) && IfModifiedSince !in req.headers && IfUnmodifiedSince in req.headers
    requires HeaderDate(req.headers[IfUnmodifiedSince], dates) == Some(since)
    ensures Valid(req, dates) == Success(LastModified(req).value <= since)
  {
  }

  /** An unreadable `If-Unmodified-Since` date, unlike the other header, fails the request. */
  lemma UnmodifiedSinceUnreadable(req: Request, dates: HttpDates)
    requires Comparable(req) && IfModifiedSince !in req.headers && IfUnmodifiedSince in req.headers
    requires HeaderDate(req.headers[IfUnmodifiedSince], dates).None?
    ensures Valid(req, dates) == Success(false)
  {
  }

  /** With both headers present, `If-Unmodified-Since` is ignored. */
  lemma ModifiedSinceTakesPrecedence(req: Request, dates: HttpDates)
    requires IfModifiedSince in req.headers
    ensures Valid(req, dates) == Valid(WithoutHeader(req, IfUnmodifiedSince), dates)
  {
    var req' := WithoutHeader(req, IfUnmodifiedSince);
    assert LastModified(req') == LastModified(req);
    assert forall m :: ModifiedSince(req', m, IfModifiedSince, dates) == ModifiedSince(req, m, IfModifiedSince, dates);
  }

  /** Parameters after a `;` in a date header never change the outcome. */
  lemma DateParametersIgnored(value: string, params: string, dates: HttpDates)
    requires ';' !in value
    ensures HeaderDate(value + ";" + params, dates) == HeaderDate(value, dates)
  {
    var s := value + ";" + params;
    var b := BeforeFirst(s, ';');
    assert BeforeFirst(value, ';') == value;
    assert s[..|value|] == value && s[|value|] == ';';
    assert b == value;
  }

  /** With a coherent date library, a date the validator formats reads back as the same time. */
  lemma FormattedDateReadsBack(t: int, dates: HttpDates)
    requires Coherent(dates)
    ensures HeaderDate(dates.format(t), dates) == Some(t)
  {
    assert BeforeFirst(dates.format(t), ';') == dates.format(t);
  }

  /**
    The `Last-Modified` the validator advertises, sent back unchanged in
    `If-Modified-Since`, fails the request while the resource is unchanged,
    and passes once the resource is newer.
   */
  lemma EchoedLastModified(req: Request, resp: Response, dates: HttpDates, later: int)
    requires Coherent(dates) && Comparable(req) && LastModifiedHeader !in resp.headers
    requires later > LastModified(req).value
    ensures LastModifiedHeader in UpdateResponse(req, resp, dates).headers
    ensures var echo := req.(headers := map[IfModifiedSince := UpdateResponse(req, resp, dates).headers[LastModifiedHeader]]);
            Valid(echo, dates) == Success(false) &&
            Valid(echo.(currentModification := Some(ModificationInfo(Some(later)))), dates) == Success(true)
  {
    var t := LastModified(req).value;
    var sent := UpdateResponse(req, resp, dates).headers[LastModifiedHeader];
    assert sent == dates.format(t);
    FormattedDateReadsBack(t, dates);
  }
}

=== FILE: scenarios.dfy ===
/**
  End-to-end behaviour of the gate with both validators registered, for the
  situations the package documents: a matching `If-None-Match`, an
  unchanged `If-Modified-Since`, the status chosen when both validators fail,
  and a mixed verdict.
 */
module Scenarios {
  import opened Wrappers
  import opened Http
  import opened Gate
  import ETag
  import LastModification

  /** A response the handler has not touched yet. */
  const Fresh: Response := Response(None, map[])

  // ---------------------------------------------------------------------------
  // Generic steps: a two-validator list, and the verdicts it can reach
  // ---------------------------------------------------------------------------

  /** The verdicts of the rule on two answers, each given by what it is. */
  lemma FirstOnlyFailing(ans: seq<Answer>)
    requires |ans| == 2 && ans[0].Answered? && ans[0].valid == Success(false) && ans[1].Skipped?
    ensures Decidable(ans) && Unanimous(ans) && LastFailing(ans, 0)
  {
  }

  lemma SecondOnlyFailing(ans: seq<Answer>)
    requires |ans| == 2 && ans[0].Skipped? && ans[1].Answered? && ans[1].valid == Success(false)
    ensures Decidable(ans) && Unanimous(ans) && LastFailing(ans, 1)
  {
  }

  lemma BothFailing(ans: seq<Answer>)
    requires |ans| == 2 && ans[0].Answered? && ans[0].valid == Success(false)
    requires ans[1].Answered? && ans[1].valid == Success(false)
    ensures Decidable(ans) && Unanimous(ans) && LastFailing(ans, 1)
  {
  }

  lemma SecondPassing(ans: seq<Answer>)
    requires |ans| == 2 && ans[0].Answered? && ans[0].valid == Success(false)
    requires ans[1].Answered? && ans[1].valid == Success(true)
    ensures Decidable(ans) && !Unanimous(ans)
  {
    assert !Fails(ans, 1);
  }

  /** Two validators of which only the first applies, and it fails the request. */
  lemma OnlyFirstFails(v0: Validator, v1: Validator, req: Request, dates: LastModification.HttpDates,
                       handler: Response -> Handled)
    requires Applies(v0, req) && Check(v0, req, dates) == Success(false)
    requires !Applies(v1, req)
    ensures Validate([v0, v1], req, dates, Fresh, handler) ==
            Success(Outcome("", UpdateAll([v0, v1], req, dates, Fresh.(status := Some(InvalidStatus(v0, req)))), 0))
  {
    FirstOnlyFailing(AskAll([v0, v1], req, dates));
    RejectedOutcome([v0, v1], req, dates, Fresh, handler, 0);
  }

  /** Two validators of which only the second applies, and it fails the request. */
  lemma OnlySecondFails(v0: Validator, v1: Validator, req: Request, dates: LastModification.HttpDates,
                        handler: Response -> Handled)
    requires !Applies(v0, req)
    requires Applies(v1, req) && Check(v1, req, dates) == Success(false)
    ensures Validate([v0, v1], req, dates, Fresh, handler) ==
            Success(Outcome("", UpdateAll([v0, v1], req, dates, Fresh.(status := Some(InvalidStatus(v1, req)))), 0))
  {
    SecondOnlyFailing(AskAll([v0, v1], req, dates));
    RejectedOutcome([v0, v1], req, dates, Fresh, handler, 1);
  }

  /** Two validators that both fail a request: the second one's status is the response's. */
  lemma BothFailedPair(v0: Validator, v1: Validator, req: Request, dates: LastModification.HttpDates,
                       handler: Response -> Handled)
    requires Applies(v0, req) && Check(v0, req, dates) == Success(false)
    requires Applies(v1, req) && Check(v1, req, dates) == Success(false)
    ensures Validate([v0, v1], req, dates, Fresh, handler).Success?
    ensures Validate([v0, v1], req, dates, Fresh, handler).value.response.status == Some(InvalidStatus(v1, req))
  {
    BothFailing(AskAll([v0, v1], req, dates));
    RejectedOutcome([v0, v1], req, dates, Fresh, handler, 1);
  }

  /** Two validators, the first failing the request and the second passing it: the handler runs. */
  lemma SecondPasses(v0: Validator, v1: Validator, req: Request, dates: LastModification.HttpDates,
                     handler: Response -> Handled)
    requires Applies(v0, req) && Check(v0, req, dates) == Success(false)
    requires Applies(v1, req) && Check(v1, req, dates) == Success(true)
    ensures Validate([v0, v1], req, dates, Fresh, handler) ==
            Success(Outcome(handler(Fresh).body, UpdateAll([v0, v1], AfterHandler(req, handler(Fresh)), dates, handler(Fresh).response), 1))
  {
    SecondPassing(AskAll([v0, v1], req, dates));
    AcceptedOutcome([v0, v1], req, dates, Fresh, handler);
  }

  // ---------------------------------------------------------------------------
  // If-None-Match naming the current tag
  // ---------------------------------------------------------------------------

  /** `If-None-Match: "tag"` for an existing resource whose strong tag is `tag` and which has no modification time. */
  function NoneMatchRequest(tag: string, verb: string): Request {
    Request(map[IfNoneMatch := ETag.Quote(tag, false)], "", verb, false, Some(ETagInfo(Some(tag), false)), None)
  }

  lemma NoneMatchVerdict(tag: string, verb: string)
    requires |tag| > 0 && ',' !in tag
    ensures ETag.Valid(NoneMatchRequest(tag, verb)) == Success(false)
  {
    var req := NoneMatchRequest(tag, verb);
    assert ETag.CurrentTag(req) == Some(tag);
    assert Header(req, IfNoneMatch) == Some(ETag.Quote(tag, false));
    ETag.NoneMatchCurrentTagFails(req, false);
  }

  /** Only the entity-tag validator applies, and it fails the request. */
  lemma NoneMatchAnswers(tag: string, verb: string, dates: LastModification.HttpDates)
    requires |tag| > 0 && ',' !in tag
    ensures Applies(ETagValidator, NoneMatchRequest(tag, verb))
    ensures Check(ETagValidator, NoneMatchRequest(tag, verb), dates) == Success(false)
    ensures InvalidStatus(ETagValidator, NoneMatchRequest(tag, verb)) == ETag.InvalidStatus(NoneMatchRequest(tag, verb))
    ensures !Applies(ModifiedSinceValidator, NoneMatchRequest(tag, verb))
  {
    NoneMatchSkipsDates(tag, verb);
    NoneMatchVerdict(tag, verb);
  }

  lemma NoneMatchSkipsDates(tag: string, verb: string)
    ensures !LastModification.Evaluate(NoneMatchRequest(tag, verb))
  {
    var req := NoneMatchRequest(tag, verb);
    assert req.headers.Keys == {IfNoneMatch};
  }

  /** What the updaters make of a fresh response carrying the entity-tag validator's status. */
  lemma NoneMatchResponse(tag: string, verb: string, dates: LastModification.HttpDates)
    requires |tag| > 0
    ensures UpdateAll([ETagValidator, ModifiedSinceValidator], NoneMatchRequest(tag, verb), dates,
                      Fresh.(status := Some(ETag.InvalidStatus(NoneMatchRequest(tag, verb))))) ==
            Response(Some(ETag.InvalidStatus(NoneMatchRequest(tag, verb))), map[ETagHeader := ETag.Quote(tag, false)])
  {
    var vs, req := [ETagValidator, ModifiedSinceValidator], NoneMatchRequest(tag, verb);
    var start := Fresh.(status := Some(ETag.InvalidStatus(NoneMatchRequest(tag, verb))));
    var r := UpdateAll(vs, req, dates, start);
    UpdateAllETag(vs, req, dates, start);
    UpdateAllLastModified(vs, req, dates, start);
    assert r.headers.Keys == {ETagHeader};
  }

  /**
    `If-None-Match: "tag"` against a resource whose tag is `tag`: the handler
    is skipped, the status is 304 for GET/HEAD and 412 otherwise, and the
    response still advertises the tag.
   */
  lemma NoneMatchCurrentTagRejected(tag: string, verb: string, dates: LastModification.HttpDates, handler: Response -> Handled)
    requires |tag| > 0 && ',' !in tag
    ensures Validate([ETagValidator, ModifiedSinceValidator], NoneMatchRequest(tag, verb), dates, Fresh, handler) ==
            Success(Outcome("", Response(Some(ETag.InvalidStatus(NoneMatchRequest(tag, verb))), map[ETagHeader := ETag.Quote(tag, false)]), 0))
  {
    NoneMatchAnswers(tag, verb, dates);
    OnlyFirstFails(ETagValidator, ModifiedSinceValidator, NoneMatchRequest(tag, verb), dates, handler);
    NoneMatchResponse(tag, verb, dates);
  }

  /** The documented example: tag `xyzzy`, requested with GET, is not modified. */
  lemma NoneMatchExample(dates: LastModification.HttpDates, handler: Response -> Handled)
    ensures Validate([ETagValidator, ModifiedSinceValidator], NoneMatchRequest("xyzzy", "GET"), dates, Fresh, handler) ==
            Success(Outcome("", Response(Some(304), map[ETagHeader := "\"xyzzy\""]), 0))
  {
    assert ETag.Quote("xyzzy", false) == "\"xyzzy\"";
    NoneMatchCurrentTagRejected("xyzzy", "GET", dates, handler);
  }

  // ---------------------------------------------------------------------------
  // If-Modified-Since naming the modification time
  // ---------------------------------------------------------------------------

  /** `If-Modified-Since` naming the resource's own modification time, for a resource without a tag. */
  function UnchangedRequest(t: int, verb: string, dates: LastModification.HttpDates): Request {
    Request(map[IfModifiedSince := dates.format(t)], "", verb, false, None, Some(ModificationInfo(Some(t))))
  }

  lemma UnchangedVerdict(t: int, verb: string, dates: LastModification.HttpDates)
    requires LastModification.Coherent(dates)
    ensures LastModification.Valid(UnchangedRequest(t, verb, dates), dates) == Success(false)
  {
    var req := UnchangedRequest(t, verb, dates);
    assert req.headers[IfModifiedSince] == dates.format(t);
    LastModification.FormattedDateReadsBack(t, dates);
    LastModification.ModifiedSinceRule(req, dates, t);
  }

  /** Only the modification validator applies, and it fails the request with 304. */
  lemma UnchangedAnswers(t: int, verb: string, dates: LastModification.HttpDates)
    requires LastModification.Coherent(dates)
    ensures !Applies(ETagValidator, UnchangedRequest(t, verb, dates))
    ensures Applies(ModifiedSinceValidator, UnchangedRequest(t, verb, dates))
    ensures Check(ModifiedSinceValidator, UnchangedRequest(t, verb, dates), dates) == Success(false)
    ensures InvalidStatus(ModifiedSinceValidator, UnchangedRequest(t, verb, dates)) == 304
  {
    UnchangedVerdict(t, verb, dates);
  }

  /** What the updaters make of a fresh response carrying the modification validator's status. */
  lemma UnchangedResponse(t: int, verb: string, dates: LastModification.HttpDates)
    ensures UpdateAll([ETagValidator, ModifiedSinceValidator], UnchangedRequest(t, verb, dates), dates,
                      Fresh.(status := Some(304))) ==
            Response(Some(304), map[LastModifiedHeader := dates.format(t)])
  {
    var vs, req := [ETagValidator, ModifiedSinceValidator], UnchangedRequest(t, verb, dates);
    var start := Fresh.(status := Some(304));
    var r := UpdateAll(vs, req, dates, start);
    UpdateAllETag(vs, req, dates, start);
    UpdateAllLastModified(vs, req, dates, start);
    assert r.headers.Keys == {LastModifiedHeader};
  }

  /**
    `If-Modified-Since` naming exactly the resource's modification time: the
    handler is skipped, the status is 304, and `Last-Modified` is still set.
   */
  lemma ModifiedSinceUnchangedRejected(t: int, verb: string, dates: LastModification.HttpDates, handler: Response -> Handled)
    requires LastModification.Coherent(dates)
    ensures Validate([ETagValidator, ModifiedSinceValidator], UnchangedRequest(t, verb, dates), dates, Fresh, handler) ==
            Success(Outcome("", Response(Some(304), map[LastModifiedHeader := dates.format(t)]), 0))
  {
    UnchangedAnswers(t, verb, dates);
    OnlySecondFails(ETagValidator, ModifiedSinceValidator, UnchangedRequest(t, verb, dates), dates, handler);
    UnchangedResponse(t, verb, dates);
  }

  // ---------------------------------------------------------------------------
  // Both validators fail, or only one of them
  // ---------------------------------------------------------------------------

  /**
    A POST whose `If-None-Match` lists the current tag (entity-tag validator:
    412) and whose `If-Modified-Since` names the modification time `t`
    (modification validator: 304), for a resource last modified at `mtime`.
   */
  function BothRequest(tag: string, t: int, mtime: int, dates: LastModification.HttpDates): Request {
    Request(map[IfNoneMatch := ETag.Quote(tag, false), IfModifiedSince := dates.format(t)],
            "", "POST", false, Some(ETagInfo(Some(tag), false)), Some(ModificationInfo(Some(mtime))))
  }

  lemma BothTagVerdict(tag: string, t: int, mtime: int, dates: LastModification.HttpDates)
    requires |tag| > 0 && ',' !in tag
    ensures ETag.Valid(BothRequest(tag, t, mtime, dates)) == Success(false)
  {
    var req := BothRequest(tag, t, mtime, dates);
    assert ETag.CurrentTag(req) == Some(tag);
    assert Header(req, IfNoneMatch) == Some(ETag.Quote(tag, false));
    ETag.NoneMatchCurrentTagFails(req, false);
  }

  lemma BothDateVerdict(tag: string, t: int, mtime: int, dates: LastModification.HttpDates)
    requires LastModification.Coherent(dates)
    ensures LastModification.Valid(BothRequest(tag, t, mtime, dates), dates) == Success(mtime > t)
  {
    var req := BothRequest(tag, t, mtime, dates);
    assert req.headers[IfModifiedSince] == dates.format(t);
    LastModification.FormattedDateReadsBack(t, dates);
    LastModification.ModifiedSinceRule(req, dates, t);
  }

  /** Both validators apply to the POST: the entity-tag one fails it with 412, the modification one decides by `mtime > t` with 304. */
  lemma BothAnswers(tag: string, t: int, mtime: int, dates: LastModification.HttpDates)
    requires |tag| > 0 && ',' !in tag && LastModification.Coherent(dates)
    ensures Applies(ETagValidator, BothRequest(tag, t, mtime, dates))
    ensures Check(ETagValidator, BothRequest(tag, t, mtime, dates), dates) == Success(false)
    ensures InvalidStatus(ETagValidator, BothRequest(tag, t, mtime, dates)) == 412
    ensures Applies(ModifiedSinceValidator, BothRequest(tag, t, mtime, dates))
    ensures Check(ModifiedSinceValidator, BothRequest(tag, t, mtime, dates), dates) == Success(mtime > t)
    ensures InvalidStatus(ModifiedSinceValidator, BothRequest(tag, t, mtime, dates)) == 304
  {
    BothTagVerdict(tag, t, mtime, dates);
    BothDateVerdict(tag, t, mtime, dates);
  }

  /**
    When both validators fail a request, the status comes from the one
    listed LAST: the same request is answered 304 with the entity-tag
    validator first and 412 with it last. The interface documentation of
    `invalidStatus` says the first failing validator is used instead.
   */
  lemma LastFailingValidatorChoosesStatus(tag: string, t: int, dates: LastModification.HttpDates, handler: Response -> Handled)
    requires |tag| > 0 && ',' !in tag && LastModification.Coherent(dates)
    ensures Validate([ETagValidator, ModifiedSinceValidator], BothRequest(tag, t, t, dates), dates, Fresh, handler).Success?
    ensures Validate([ETagValidator, ModifiedSinceValidator], BothRequest(tag, t, t, dates), dates, Fresh, handler).value.response.status == Some(304)
    ensures Validate([ModifiedSinceValidator, ETagValidator], BothRequest(tag, t, t, dates), dates, Fresh, handler).Success?
    ensures Validate([ModifiedSinceValidator, ETagValidator], BothRequest(tag, t, t, dates), dates, Fresh, handler).value.response.status == Some(412)
  {
    var req := BothRequest(tag, t, t, dates);
    BothAnswers(tag, t, t, dates);
    BothFailedPair(ETagValidator, ModifiedSinceValidator, req, dates, handler);
    BothFailedPair(ModifiedSinceValidator, ETagValidator, req, dates, handler);
  }

  /**
    A mixed verdict is not a rejection: the tag still matches but the resource
    changed after the `If-Modified-Since` date, so the handler runs once and
    its body and status are kept.
   */
  lemma MixedVerdictRunsHandler(tag: string, t: int, dates: LastModification.HttpDates, handler: Response -> Handled)
    requires |tag| > 0 && ',' !in tag && LastModification.Coherent(dates)
    ensures var r := Validate([ETagValidator, ModifiedSinceValidator], BothRequest(tag, t, t + 1, dates), dates, Fresh, handler);
            r.Success? && r.value.handlerCalls == 1 && r.value.body == handler(Fresh).body &&
            r.value.response.status == handler(Fresh).response.status
  {
    var req := BothRequest(tag, t, t + 1, dates);
    BothAnswers(tag, t, t + 1, dates);
    SecondPasses(ETagValidator, ModifiedSinceValidator, req, dates, handler);
  }
}

=== FILE: text.dfy ===
/**
  The three string operations the validators perform on header values,
  with Python 2 byte-string semantics: `str.strip()`, `str.split(sep)` and
  `str.split(sep, 1)[0]`.
 */
module Text {

  /** The characters `str.strip()` removes: space, tab, LF, CR, VT and FF. */
  predicate IsSpace(c: char) {
    c == ' ' || c == '\t' || c == '\n' || c == '\r' || c == '\U{0B}' || c == '\U{0C}'
  }

  ghost predicate AllSpace(s: string) {
    forall i :: 0 <= i < |s| ==> IsSpace(s[i])
  }

  /** No whitespace at either end (vacuously true of the empty string). */
  ghost predicate Trimmed(s: string) {
    |s| > 0 ==> !IsSpace(s[0]) && !IsSpace(s[|s| - 1])
  }

  /** Removes leading whitespace: the result is the longest suffix not starting with a space. */
  function TrimLeft(s: string): (r: string)
    ensures |r| <= |s| && r == s[|s| - |r|..]
    ensures AllSpace(s[..|s| - |r|])
    ensures |r| > 0 ==> !IsSpace(r[0])
    decreases |s|
  {
    if |s| > 0 && IsSpace(s[0]) then
      var r := TrimLeft(s[1..]);
      assert s[..|s| - |r|] == [s[0]] + s[1..][..|s| - 1 - |r|];
      r
    else s
  }

  /** Removes trailing whitespace: the result is the longest prefix not ending in a space. */
  function TrimRight(s: string): (r: string)
    ensures |r| <= |s| && r == s[..|r|]
    ensures AllSpace(s[|r|..])
    ensures |r| > 0 ==> !IsSpace(r[|r| - 1])
    decreases |s|
  {
    if |s| > 0 && IsSpace(s[|s| - 1]) then
      var r := TrimRight(s[..|s| - 1]);
      assert s[|r|..] == s[..|s| - 1][|r|..] + [s[|s| - 1]];
      r
    else s
  }

  /**
    `s.strip()`: `s` without whitespace at either end. `StripPadded` shows
    that this is exactly the text between the whitespace runs.
   */
  function Strip(s: string): (r: string)
    ensures |r| <= |s|
    ensures Trimmed(r)
  {
    TrimRight(TrimLeft(s))
  }

  /** Stripping only removes characters. */
  lemma StripAvoids(s: string, ch: char)
    requires ch !in s
    ensures ch !in Strip(s)
  {
    assert ch !in TrimLeft(s);
  }

  lemma {:induction false} TrimLeftSpaces(w: string, t: string)
    requires AllSpace(w)
    ensures TrimLeft(w + t) == TrimLeft(t)
    decreases |w|
  {
    if |w| > 0 {
      assert IsSpace((w + t)[0]);
      assert (w + t)[1..] == w[1..] + t;
      TrimLeftSpaces(w[1..], t);
    } else {
      assert w + t == t;
    }
  }

  lemma {:induction false} TrimRightSpaces(t: string, w: string)
    requires AllSpace(w)
    ensures TrimRight(t + w) == TrimRight(t)
    decreases |w|
  {
    if |w| > 0 {
      assert IsSpace((t + w)[|t + w| - 1]);
      assert (t + w)[..|t + w| - 1] == t + w[..|w| - 1];
      TrimRightSpaces(t, w[..|w| - 1]);
    } else {
      assert t + w == t;
    }
  }

  /**
    Stripping is exact: surrounding a whitespace-free-ended string with
    whitespace on both sides and stripping gives the string back.
   */
  lemma StripPadded(w1: string, t: string, w2: string)
    requires AllSpace(w1) && AllSpace(w2) && Trimmed(t)
    ensures Strip(w1 + t + w2) == t
  {
    assert w1 + t + w2 == w1 + (t + w2);
    TrimLeftSpaces(w1, t + w2);
    if |t| == 0 {
      assert t + w2 == w2 + "";
      TrimLeftSpaces(w2, "");
    }
    TrimRightSpaces(t, w2);
  }

  /** `parts` joined with `sep` between consecutive parts (Python's `sep.join(parts)`). */
  function Join(parts: seq<string>, sep: char): string
    requires |parts| > 0
  {
    if |parts| == 1 then parts[0] else parts[0] + [sep] + Join(parts[1..], sep)
  }

  /** Prefixing the first part prefixes the joined text. */
  lemma JoinFirstPrefixed(pre: string, parts: seq<string>, sep: char)
    requires |parts| > 0
    ensures Join([pre + parts[0]] + parts[1..], sep) == pre + Join(parts, sep)
  {
    var qs := [pre + parts[0]] + parts[1..];
    if |parts| > 1 {
      assert qs[1..] == parts[1..];
      assert (pre + parts[0]) + [sep] + Join(parts[1..], sep) == pre + (parts[0] + [sep] + Join(parts[1..], sep));
    }
  }

  /**
    `s.split(sep)`: the maximal `sep`-free pieces of `s`, in order. There is
    always at least one piece; the empty string splits into one empty piece.
   */
  function Split(s: string, sep: char): (parts: seq<string>)
    ensures |parts| > 0
    ensures forall i :: 0 <= i < |parts| ==> sep !in parts[i]
    ensures Join(parts, sep) == s
    decreases |s|
  {
    if |s| == 0 then [""]
    else
      var rest := Split(s[1..], sep);
      if s[0] == sep then
        assert s == [s[0]] + s[1..];
        [""] + rest
      else
        var parts := [[s[0]] + rest[0]] + rest[1..];
        assert parts[1..] == rest[1..];
        assert s == [s[0]] + s[1..];
        parts
  }

  lemma {:induction false} SplitNoSeparator(a: string, sep: char)
    requires sep !in a
    ensures Split(a, sep) == [a]
    decreases |a|
  {
    if |a| > 0 {
      SplitNoSeparator(a[1..], sep);
      assert a == [a[0]] + a[1..];
    }
  }

  lemma {:induction false} SplitAtFirst(a: string, sep: char, b: string)
    requires sep !in a
    ensures Split(a + [sep] + b, sep) == [a] + Split(b, sep)
    decreases |a|
  {
    var s := a + [sep] + b;
    if |a| == 0 {
      assert s[1..] == b;
    } else {
      assert s[1..] == a[1..] + [sep] + b;
      SplitAtFirst(a[1..], sep, b);
      assert a == [a[0]] + a[1..];
    }
  }

  /** Splitting undoes joining when no part contains the separator. */
  lemma {:induction false} SplitJoin(parts: seq<string>, sep: char)
    requires |parts| > 0
    requires forall i :: 0 <= i < |parts| ==> sep !in parts[i]
    ensures Split(Join(parts, sep), sep) == parts
    decreases |parts|
  {
    if |parts| == 1 {
      SplitNoSeparator(parts[0], sep);
    } else {
      SplitJoin(parts[1..], sep);
      SplitAtFirst(parts[0], sep, Join(parts[1..], sep));
      assert parts == [parts[0]] + parts[1..];
    }
  }

  /** Joining two lists of parts puts one separator between their joins. */
  lemma {:induction false} JoinConcat(p: seq<string>, q: seq<string>, sep: char)
    requires |p| > 0 && |q| > 0
    ensures Join(p + q, sep) == Join(p, sep) + [sep] + Join(q, sep)
    decreases |p|
  {
    assert (p + q)[0] == p[0];
    if |p| == 1 {
      assert (p + q)[1..] == q;
    } else {
      assert (p + q)[1..] == p[1..] + q;
      JoinConcat(p[1..], q, sep);
    }
  }

  /** Splitting at one occurrence of the separator splits each side separately. */
  lemma SplitAround(a: string, sep: char, b: string)
    ensures Split(a + [sep] + b, sep) == Split(a, sep) + Split(b, sep)
  {
    var p, q := Split(a, sep), Split(b, sep);
    JoinConcat(p, q, sep);
    assert forall i :: 0 <= i < |p + q| ==> sep !in (p + q)[i] by {
      forall i | 0 <= i < |p + q| ensures sep !in (p + q)[i] {
        if i >= |p| { assert (p + q)[i] == q[i - |p|]; }
      }
    }
    SplitJoin(p + q, sep);
  }

  /** `s.split(c, 1)[0]`: the text before the first `c`, or all of `s` when there is none. */
  function BeforeFirst(s: string, c: char): (r: string)
    ensures |r| <= |s| && r == s[..|r|]
    ensures c !in r
    ensures |r| < |s| ==> s[|r|] == c
    decreases |s|
  {
    if |s| == 0 || s[0] == c then ""
    else
      var r := BeforeFirst(s[1..], c);
      assert s[..|r| + 1] == [s[0]] + s[1..][..|r|];
      [s[0]] + r
  }
}

=== FILE: wrappers.dfy ===
/** Optional values and error-carrying results, usable with `:-`. */
module Wrappers {

  /** A value that may be absent (Python's `None`). */
  datatype Option<+T> = None | Some(value: T)

  /** The outcome of a computation that may raise: a value, or the error it raised. */
  datatype Result<+T, +E> = Success(value: T) | Failure(error: E) {

    predicate IsFailure() {
      Failure?
    }

    function PropagateFailure<U>(): Result<U, E>
      requires Failure?
    {
      Failure(error)
    }

    function Extract(): T
      requires Success?
    {
      value
    }
  }
}
